=== FILE: README.md ===
# speedtest-go backend core, modelled in Dafny

This project models the request-handling core of the speedtest-go backend
(WJQSERVER/speedtest-go) and proves properties of it with Dafny 4.11:

- **Address classification** (`web/getip.go`). Ten anchored patterns mark
  loopback, link-local, private, CGNAT, unspecified and broadcast addresses.
  The first pattern that matches gives the processed string `<ip> - <kind>`.
  A public address is optionally enriched with the ISP name (AS numbers
  removed) and the country.
- **The chart endpoint** (`web/chart.go`). A fixed-window rate limiter
  guards it. The endpoint fetches the newest `chartlist` records and parses
  the measurements as floats. It anonymizes the address in the stored ISP
  information: `a.b.c.d` becomes `a.b.c.x`, and IPv6 keeps three groups
  plus `::`. The ISP information is then re-encoded.
- **The telemetry store** (`database/bolt/bolt.go`). This is a bbolt bucket
  keyed by the record's ULID. Saving happens in one write transaction.
  Reads cover one record by key, the newest N records through a cursor
  walked backwards from the last key, and all records in key order.
- **The `Record` handler** (`results/telemetry.go`). It builds a telemetry
  record from the submitted form and the request, then saves it.
- **The `/garbage` download** (`web/garbage.go`). It computes the chunk
  count from `ckSize` and runs the write loop, which stops at the first
  failed write.

Modules, one file each:

- `Wrappers`: `Option` and `Result`.
- `Text`: `strings.Index`, `Split`/`Join` and decimal digits.
- `Classify`: the patterns and the cascade.
- `NetIP`: `net.ParseIP`.
- `GetIP`: the handler of `/getIP`.
- `RateLimit`: the rate limiter.
- `Anonymize`: `isSpecialIP`, `PreprocessIPInfo` and `GetIPFromProcessedString`.
- `Chart`: `GetChartData`.
- `KeyOrder`: bbolt's byte-wise key order.
- `Schema`: `TelemetryData`.
- `Bolt`: the store.
- `HostPort`: Go's `net.SplitHostPort`.
- `Results`: `Record`.
- `Garbage`: `/garbage`.

The store is modelled as the bucket's entries in key order: a sequence of
(key, value) pairs, sorted strictly by `KeyOrder.Less`. `AsMap` views this
sequence as a map. Cursor walks are computed on the sequence, and facts
about contents are stated through the map. Lexicographic order on
characters is the same as the byte order of their UTF-8 encodings, so
`KeyOrder.Less` is bbolt's `bytes.Compare` order.

Parameters stand for everything outside the core:

- the IPv6 syntax check inside `net.ParseIP`, a function `string -> V6Kind`
  that also says whether the address is IPv4-mapped;
- `encoding/json`, as codec functions that return `None` on failure;
- `strconv.ParseFloat`, which reports a value, a syntax error or an
  out-of-range error;
- the IP lookup service;
- the clock, as nanosecond instants;
- ULID generation;
- the success of the bbolt commit and of each network write.

Four consequences of the code that are easy to miss:

- The fallback processed string for ISP information that does not decode
  is the code's `未知` (Chinese for "unknown").
- Because of the rewrite that follows, that fallback is blanked to the
  empty string anyway (`Chart.UndecodableIspIsBlank`). More generally,
  the chart rewrite blanks every processed string that does not start with
  an IP address followed by " - " (`Chart.RewriteIsp`).
- The CGNAT pattern is modelled as written, `^100\.([6-9][0-9]|1[0-2][0-7])\.`.
  `Classify.CgnatPatternOctets` proves which second octets it accepts:
  60–99, and 100–127 whose last digit is at most 7. So it admits
  100.60–100.63 and misses, for example, 100.108 and 100.119. The shared
  address space of RFC 6598, 100.64.0.0/10, is second octets 64–127.
- A record that does not decode makes `GetLastNRecords` and
  `GetAllTelemetry` fail. The chart endpoint then answers 500 instead of
  skipping the record.

## Model

| member | source | states |
|---|---|---|
| Text.Index | web/chart.go:151 | the first occurrence of the separator, with none earlier; `None` exactly when it occurs nowhere |
| Text.Split | web/chart.go:185 | at least one part, no part contains the separator, and joining the parts gives the text back |
| Text.SplitJoin | web/chart.go:193 | splitting a join of separator-free parts gives the parts back |
| Classify.FirstMatch | web/getip.go:35-58 | the pattern found matches and no earlier pattern in the cascade matches; `None` exactly when no pattern matches |
| Classify.Processed | web/getip.go:35-58 | the processed string starts with the address; it is the bare address when no pattern matches, otherwise the address, " - " and the matched kind's text |
| Classify.PatternsDisjoint | web/getip.go:15-24 | no address matches two of the ten patterns, so the order of the `switch` never decides between two of them |
| Classify.PrefixPatternExtends | web/getip.go:16-22 | the seven prefix patterns keep matching whatever follows the prefix |
| Classify.ExactPatternStopsOnExtension | web/getip.go:23-24 | the exact patterns (`::1`, `0.0.0.0`, `255.255.255.255`) stop matching when anything is appended |
| Classify.CgnatPatternOctets | web/getip.go:22 | for a canonical second octet v, the CGNAT pattern matches `100.v.` exactly when 60 <= v <= 99, or 100 <= v <= 127 with last digit at most 7 |
| Classify.OnlyMatch | web/getip.go:35-58 | an address that matches a pattern is classified by exactly that pattern, whatever the order of the `switch` |
| Classify.CgnatPatternIsNotTheSharedBlock | web/getip.go:22 | 100.60.0.1 is classified as CGNAT although it lies outside 100.64.0.0/10, and 100.108.0.1 is not although it lies inside |
| NetIP.ParseIP | web/chart.go:168-175 | `net.ParseIP` dispatches on the first '.', ':' or '%': IPv4 exactly for a text whose first separator is '.' and which is a dotted quad, IPv6 exactly when the first separator is ':' and the IPv6 parser accepts it, IPv4-mapped exactly as that parser says |
| NetIP.IsIP | web/chart.go:168-175 | `isIP` holds exactly for a dotted quad whose first separator is '.', or a text whose first separator is ':' and which the IPv6 parser accepts; never for a text without '.', ':' or '%' |
| NetIP.ParseIPv4Exactly | web/chart.go:168-175 | `net.ParseIP` yields an IPv4 address exactly for four canonical decimal fields of at most 255 |
| NetIP.DottedQuadShape | web/chart.go:184-187 | a text `net.ParseIP` accepts as IPv4 is exactly four canonical octets joined by '.' |
| NetIP.ParseDottedQuad | web/chart.go:184 | every `a.b.c.d` built from canonical octets parses as IPv4 |
| NetIP.MaskedIsNotIP | web/chart.go:187 | the masked form `a.b.c.x` is not an IP address |
| NetIP.EmptyIsNotIP | web/chart.go:168-175 | the empty text is not an IP address |
| GetIP.DigitRun | web/getip.go:25 | the longest run of decimal digits at the start of the text |
| GetIP.RemoveASToken | web/getip.go:83 | a whole `AS<digits><white space>` token is deleted |
| GetIP.RemoveASKeeps | web/getip.go:83 | a leading character other than 'A' is kept, and the rest is processed on its own |
| GetIP.RemoveASWithoutAS | web/getip.go:83 | a text in which "AS" never occurs is unchanged |
| GetIP.TokenIsMatch | web/getip.go:25 | the scanner finds a token at a position exactly when a match of `AS\d+\s` starts there |
| GetIP.RemoveASKeepsUnmatched | web/getip.go:83 | a character at which no `AS\d+\s` match starts is kept, and the scan moves on to the next one |
| GetIP.RemoveASWithoutToken | web/getip.go:83 | a text in which no `AS\d+\s` match starts anywhere is unchanged |
| GetIP.NoTokenWithoutASDigit | web/getip.go:25 | no match starts anywhere in a text in which "AS" is never followed by a digit |
| GetIP.IspName | web/getip.go:83-87 | the organisation without AS tokens, or "Unknown ISP" when nothing is left of it |
| GetIP.IspNameDropsASNumber | web/getip.go:83-87 | the organisation `AS<n> <name>` is shown as `<name>` when no further `AS\d+\s` match starts in the name |
| GetIP.ComcastExample | web/getip.go:83-87 | "AS7922 COMCAST-7922" is shown as "COMCAST-7922" |
| GetIP.IspString | web/getip.go:89-93 | the ISP name, followed by ", <country>" exactly when the country is known |
| GetIP.HandleGetIP | web/getip.go:29-107 | the reply starts with the client address; `getIPInfo` is called exactly for a public address without " - " when `isp=true` (for the empty address it answers empty without a request); both reply shapes |
| GetIP.EarlyReturnIffSpecial | web/getip.go:61-73 | the early return with empty raw ISP information happens exactly for the non-public addresses |
| GetIP.PublicWithoutLookupIsBare | web/getip.go:76-94 | without `isp=true` a public address is reported bare |
| GetIP.FailedLookupIsUnknownISP | web/getip.go:80-93 | an empty lookup answer gives `<ip> - Unknown ISP` |
| RateLimit.NewSimpleRateLimiter | web/chart.go:51-58 | a new limiter has count 0 and its window ends one window length after creation |
| RateLimit.Allow | web/chart.go:61-80 | a new window starts only strictly after the reset time; a request passes exactly when the count is below the budget; only passing requests are counted; the counter stays within the budget; a refusal inside the window changes nothing |
| RateLimit.BurstWithinWindow | web/chart.go:61-80 | within one window the i-th call passes exactly when count + i is below the budget, and the counter ends at the budget at most |
| RateLimit.SixthCallDenied | web/chart.go:48 | with 5 requests per 10 seconds, six calls in one window give five passes and a refusal that leaves the limiter unchanged |
| RateLimit.CallAfterWindowResets | web/chart.go:66-69 | a call after the window passes, restarts the count at one and moves the reset time one window ahead |
| Anonymize.AnyMatches | web/chart.go:216-223 | true exactly when one of the patterns matches |
| Anonymize.IsSpecialIP | web/chart.go:202-223 | true exactly for the addresses the `getIP` cascade marks as non-public |
| Anonymize.PreprocessIPInfo | web/chart.go:178-200 | special addresses and non-addresses are unchanged; a public address with an IPv4 form and four '.'-fields becomes its first three fields and `x`; any other address with at least three ':'-groups becomes its first three groups and "::"; any other address is unchanged |
| Anonymize.AnonymizeIPv4 | web/chart.go:184-188 | a public `a.b.c.d` becomes `a.b.c.x`, which is not an IP address and is left unchanged by a second pass |
| Anonymize.AnonymizeIdempotent | web/chart.go:178-200 | anonymizing twice equals anonymizing once, for special addresses, non-addresses, IPv4 addresses and the IPv6 addresses whose result has no '.' |
| Anonymize.PrefixIsStable | web/chart.go:192-196 | the IPv6 result `g0:g1:g2::` without a '.' is left unchanged by a second pass, whatever the IPv6 parser answers for it |
| Anonymize.PrefixSplits | web/chart.go:193-195 | `g0:g1:g2::` splits on ':' back into the three groups and two empty ones |
| Anonymize.AnonymizeIPv6 | web/chart.go:192-196 | an IPv6 address becomes its first three groups, a prefix of the address, followed by "::" |
| Anonymize.JoinKeepsThree | web/chart.go:195 | the first three groups, rejoined, are a prefix of the address |
| Anonymize.GetIPFromProcessedString | web/chart.go:149-165 | either two empty strings, or an IP address before the first " - " plus the rest from " - " on, which together make up the input; empty exactly when there is no " - " or no address before it |
| Anonymize.SplitProcessed | web/chart.go:149-165 | the address is recovered from every `<ip> - <text>` whose address has no space |
| Chart.FloatValue | web/chart.go:104-107 | the value kept when the parse error is discarded: 0 for a syntax error, an infinity of the input's sign when out of range |
| Chart.DecodedIsp | web/chart.go:109-115 | the decoded ISP information, or the fallback with processed string `未知` and empty raw information |
| Chart.RewriteIsp | web/chart.go:117-125 | only the raw address and the processed string change; the processed string keeps its text after the address and has the address anonymized, and is blanked when it has no leading address |
| Chart.RewritePublicIPv4 | web/chart.go:117-122 | `a.b.c.d - <text>` for a public IPv4 address becomes `a.b.c.x - <text>`, and a raw address `a.b.c.d` becomes `a.b.c.x` |
| Chart.SplitDottedProcessed | web/chart.go:117 | the splitter takes `a.b.c.d` out of `a.b.c.d - <text>` and keeps ` - <text>` as the rest |
| Chart.RewriteKeepsSpecial | web/chart.go:117-122 | a processed string naming a non-public address is kept as it is |
| Chart.UndecodableIspIsBlank | web/chart.go:110-125 | ISP information that does not decode comes out with an empty processed string and empty raw information |
| Chart.IspText | web/chart.go:127-132 | the re-encoded ISP information, or "{}" when encoding fails |
| Chart.UndecodableRecordPoint | web/chart.go:102-132 | a record whose ISP text does not decode still gets a point with its timestamp, carrying the empty ISP information re-encoded |
| Chart.PublicIPv4RecordPoint | web/chart.go:102-132 | a record whose ISP information reads `a.b.c.d - <text>` for a public IPv4 address is charted with `a.b.c.x - <text>` and the raw address `a.b.c.x` |
| Chart.MapInOrder | web/chart.go:102-143 | the loop produces one output per input, the j-th output computed from the j-th input |
| Chart.ChartSeries | web/chart.go:102-143 | one point per record, in the order of the records |
| Chart.GetChartData | web/chart.go:83-146 | 429 exactly when the limiter refuses; 500 for a missing bucket or an undecodable record; otherwise the points of the newest `chartlist` records, newest first |
| Chart.ExampleAnonymized | web/chart.go:117-125 | a record from 203.0.113.9 is shown as 203.0.113.x in both the processed string and the raw address |
| KeyOrder.LessIrreflexive | database/bolt/bolt.go:96-97 | no key is below itself |
| KeyOrder.LessTotal | database/bolt/bolt.go:96-97 | of two different keys one is below the other |
| KeyOrder.LessTransitive | database/bolt/bolt.go:96-97 | the key order is transitive |
| KeyOrder.LessAsymmetric | database/bolt/bolt.go:96-97 | two keys are never below each other |
| Bolt.Get | database/bolt/bolt.go:74 | the value is present exactly when the key is in the bucket, and it is the bucket's value for it |
| Bolt.Put | database/bolt/bolt.go:59 | the bucket maps the key to the new value and is otherwise unchanged |
| Bolt.PutKeepsSorted | database/bolt/bolt.go:59 | a put keeps the entries in strict key order |
| Bolt.CheckedPut | database/bolt/bolt.go:59 | the put succeeds exactly for a non-empty key within bbolt's key limit and a value within its value limit |
| Bolt.SaveTelemetry | database/bolt/bolt.go:41-60 | the record is stamped with the save time; the save succeeds exactly when encoding, the size checks and the commit succeed; on failure the store is unchanged; on success the record's UUID maps to its encoding and nothing else changes |
| Bolt.SaveKeepsValid | database/bolt/bolt.go:41-60 | a save keeps the bucket sorted |
| Bolt.GetTelemetryByUUID | database/bolt/bolt.go:64-84 | a missing bucket, a missing key and a value that does not decode are three errors; otherwise the decoded record |
| Bolt.SaveThenGet | database/bolt/bolt.go:41-84 | after a successful save, looking the UUID up gives the record back, stamped with the save time |
| Bolt.SaveTouchesOnlyItsKey | database/bolt/bolt.go:53-59 | a save leaves the lookup of every other key unchanged |
| Bolt.WalkLength | database/bolt/bolt.go:99-102 | the walk takes `limit` records, capped at the bucket's size, and none for a limit of 0 or less |
| Bolt.Newest | database/bolt/bolt.go:96-110 | the last n entries, newest first |
| Bolt.GetLastNRecords | database/bolt/bolt.go:87-118 | the decoded values of the last `limit` entries, from the largest key backwards; fails exactly when one of them does not decode |
| Bolt.LastNAreNewest | database/bolt/bolt.go:96-111 | the walked keys strictly decrease, the first is the largest key in the bucket, and every key not walked is below all the walked ones |
| Bolt.GetAllTelemetry | database/bolt/bolt.go:121-161 | the decoded values of all entries in key order; fails exactly when one of them does not decode |
| Bolt.SortedSize | database/bolt/bolt.go:130-137 | a sorted bucket holds one entry per key |
| Bolt.AllInKeyOrder | database/bolt/bolt.go:130-137 | the walk visits every key of the bucket exactly once |
| HostPort.SplitHostPort | results/telemetry.go:49 | on error host and port are empty; otherwise the port follows the last ':' and contains no ':', and the host contains no brackets |
| HostPort.SplitJoined | results/telemetry.go:49 | a host and a port joined as Go joins them split back into the same host and port |
| Results.PostForm | results/telemetry.go:53-60 | the submitted value, or "" when the field is absent |
| Results.NewRecord | results/telemetry.go:49-76 | the client address is the host part of the remote address; an empty `ispinfo` is stored as "{}" and any other value as it is; every other field is copied from the form or the headers |
| Results.Record | results/telemetry.go:43-91 | "Telemetry is disabled" without saving when the model is "none"; otherwise 200 "id <uuid>" exactly when the save succeeds, and 500 with the store unchanged when it fails |
| Results.RecordThenGet | results/telemetry.go:78-90 | after an "id <uuid>" reply the store gives back, under that UUID, the submitted record stamped with the save time |
| Results.DisabledStoresNothing | results/telemetry.go:44-47 | with telemetry disabled the store is unchanged |
| Garbage.ParseInt10 | web/garbage.go:35 | a value exactly for an optional sign followed by at least one digit whose value fits in 64 bits, and then the signed decimal value |
| Garbage.ParseFormatted | web/garbage.go:35 | every 64-bit integer printed in decimal parses back to itself |
| Garbage.Chunks | web/garbage.go:28-46 | 8 when `ckSize` is absent; no download when it does not parse; otherwise the value capped at 1024, with 8 for a value that is not positive; always 1 to 1024 chunks |
| Garbage.RequestedChunks | web/garbage.go:39-45 | asking for 1 to 1024 chunks gets exactly that many, more gets 1024, and 0 or less gets 8 |
| Garbage.Garbage | web/garbage.go:49-55 | the chunks before the first failed write are written, and the loop stops there; without a failure all chunks are written |

## Left out

- The HTTP layer (gin) is not modelled: routing, response headers, JSON rendering of replies, logging and the ISP-information JSON that `getIP` logs. `web/web.go`, `web/route.go`, `web/fs.go`, `web/empty.go`, `web/listener_linux.go`, `main.go` and the configuration loader are not part of this model.
- `c.ClientIP()` and its trusted-proxy logic are not modelled; the client address is a parameter.
- The outbound request of `getIPInfo` (URL building, transport, reading and decoding the body) is an unconstrained lookup function. In the code the empty answer comes back only for an empty address, a transport error or a read error; the status code is not checked, and a body that fails to decode still gives whatever the decoder filled in before the error.
- IPv6 syntax, including the rejection of zones by `net.ParseIP`, is a parameter; only the dispatch on the first '.', ':' or '%' and the dotted-quad parser are written out.
- JSON encoding and decoding of records and ISP information are parameters. Go's partial filling of a struct on a decode error is not modelled. The chart handler and the store replace or discard the result on a decode error; `getIPInfo` keeps it, which the unconstrained lookup function covers.
- Chart.GetChartData: an empty series is returned as an empty sequence. Go renders the nil slice as JSON `null`, which belongs to the response encoding and is left out.
- Chart.FloatValue: floats are abstract values, not IEEE-754 doubles. The failure of JSON encoding for infinities and NaN in the reply is not modelled.
- Bolt.GetTelemetryByUUID: returns only the error on failure. Go also returns the partly filled record, which no caller uses.
- Bolt.GetLastNRecords: returns only the error on failure. Go also returns the records decoded before the failure, which the chart endpoint discards.
- Bolt.CheckedPut: measures the key length in characters rather than UTF-8 bytes. The keys written are ASCII ULIDs, for which the two agree.
- bbolt's file format, pages, mmap and transaction concurrency are not modelled. A transaction is one atomic step, and a failed commit is a parameter.
- The limiter's mutex is not modelled: calls are taken one at a time, in the order of their clock readings. The clock is nanoseconds as an unbounded integer, so `time.Time` overflow is not modelled.
- Anonymize.AnonymizeIdempotent: excludes the two public IPv6 forms whose result keeps a '.': an IPv4-mapped address with four '.'-fields (its result `…a.b.c.x` starts with a ':'-group), and an address with a '.' in its first three ':'-groups. For these the result is sent to the IPv6 parser again, which is a parameter, so whether it parses is not known to the model.
- GetIP.RemoveAS: its own contract only bounds the length. What it deletes and keeps is stated by `GetIP.RemoveASToken` (a match is deleted whole) and `GetIP.RemoveASKeepsUnmatched` (any other character is kept), with `GetIP.TokenIsMatch` tying the scanner to the pattern.
- ULID generation (time plus monotonic random entropy) is not modelled; the UUID is a parameter.
- `Record` saves through the `DataAccess` interface; only the bbolt implementation is modelled.
- `/garbage` writes copies of a random block. Its contents and the status set by `AbortWithError` after a failed write are not modelled, only how many chunks are written.
- `GetAllTelemetry`'s debug log of every record is not modelled.

=== FILE: anonymize.dfy ===
/**
  The address helpers of web/chart.go: `isSpecialIP` over the list of
  special patterns, `PreprocessIPInfo` (the anonymizer) and
  `GetIPFromProcessedString` (the processed-string splitter).
 */
module Anonymize {
  import opened Wrappers
  import opened Text
  import opened Classify
  import opened NetIP

  /** `specialIPPatterns`: the same ten patterns as the `getIP` cascade. */
  const SpecialPatterns: seq<Pattern> := [
    LoopbackIPv6, LinkLocalIPv6, LoopbackIPv4, Private10, Private172,
    Private192, LinkLocalIPv4, Cgnat, Unspecified, Broadcast
  ]

  /** Whether one of `ps` matches `ip`, trying them in order. */
  function AnyMatches(ps: seq<Pattern>, ip: string): (r: bool)
    ensures r <==> exists i :: 0 <= i < |ps| && Matches(ps[i], ip)
  {
    if |ps| == 0 then false
    else if Matches(ps[0], ip) then true
    else
      var r := AnyMatches(ps[1..], ip);
      assert forall i :: 1 <= i < |ps| ==> ps[i] == ps[1..][i - 1];
      r
  }

  /**
    `isSpecialIP`: true exactly for the addresses the `getIP` cascade marks
    as non-public.
   */
  function IsSpecialIP(ip: string): (r: bool)
    ensures r <==> FirstMatch(ip).Some?
  {
    assert SpecialPatterns == Cascade;
    var r := AnyMatches(SpecialPatterns, ip);
    assert (forall p: Pattern :: !Matches(p, ip)) ==> !r;
    assert (exists p: Pattern :: Matches(p, ip)) ==> r by {
      if exists p: Pattern :: Matches(p, ip) {
        var p: Pattern :| Matches(p, ip);
        assert Matches(SpecialPatterns[Rank(p)], ip);
      }
    }
    r
  }

  /** The first three ':'-separated groups of `ip`, rejoined. */
  function ThreeGroups(g: seq<string>): string
    requires |g| >= 3
  {
    g[0] + ":" + g[1] + ":" + g[2]
  }

  /**
    `PreprocessIPInfo`: special addresses and texts that are not IP
    addresses are returned unchanged; an address with an IPv4 form and four
    '.'-fields keeps three of them and gets `x` as the last; any other
    address with at least three ':'-groups keeps three groups and `::`.
   */
  function PreprocessIPInfo(v6: string -> V6Kind, ip: string): (r: string)
    ensures IsSpecialIP(ip) ==> r == ip
    ensures FirstMatch(ip).Some? ==> r == ip
    ensures !IsIP(v6, ip) ==> r == ip
    ensures !IsSpecialIP(ip) && HasIPv4Form(ParseIP(v6, ip)) && |Split(ip, '.')| == 4 ==>
      r == Dotted(Split(ip, '.')[0], Split(ip, '.')[1], Split(ip, '.')[2], "x")
    ensures (!IsSpecialIP(ip) && IsIP(v6, ip) && !(HasIPv4Form(ParseIP(v6, ip)) && |Split(ip, '.')| == 4)
             && |Split(ip, ':')| >= 3) ==>
      r == ThreeGroups(Split(ip, ':')) + "::"
    ensures (!IsSpecialIP(ip) && IsIP(v6, ip) && !(HasIPv4Form(ParseIP(v6, ip)) && |Split(ip, '.')| == 4)
             && |Split(ip, ':')| < 3) ==>
      r == ip
    ensures r == ip
      || (|Split(ip, '.')| == 4 && r == Dotted(Split(ip, '.')[0], Split(ip, '.')[1], Split(ip, '.')[2], "x"))
      || (|Split(ip, ':')| >= 3 && r == ThreeGroups(Split(ip, ':')) + "::")
  {
    if IsSpecialIP(ip) then ip
    else
      var form := ParseIP(v6, ip);
      var dots := Split(ip, '.');
      if HasIPv4Form(form) && |dots| == 4 then Dotted(dots[0], dots[1], dots[2], "x")
      else
        var groups := Split(ip, ':');
        if !form.NotIP? && |groups| >= 3 then ThreeGroups(groups) + "::"
        else ip
  }

  /**
    A public IPv4 address `a.b.c.d` becomes `a.b.c.x`; that text is not an
    IP address, so anonymizing it again changes nothing.
   */
  lemma AnonymizeIPv4(v6: string -> V6Kind, a: string, b: string, c: string, d: string)
    requires IsOctetText(a) && IsOctetText(b) && IsOctetText(c) && IsOctetText(d)
    requires !IsSpecialIP(Dotted(a, b, c, d))
    ensures PreprocessIPInfo(v6, Dotted(a, b, c, d)) == Dotted(a, b, c, "x")
    ensures !IsIP(v6, Dotted(a, b, c, "x"))
    ensures PreprocessIPInfo(v6, Dotted(a, b, c, "x")) == Dotted(a, b, c, "x")
  {
    DigitsHaveNoSeparator(a);
    DigitsHaveNoSeparator(b);
    DigitsHaveNoSeparator(c);
    DigitsHaveNoSeparator(d);
    ParseDottedQuad(v6, a, b, c, d);
    DottedSplit(a, b, c, d);
    MaskedIsNotIP(v6, a, b, c);
  }

  /**
    Anonymizing twice is anonymizing once, except for the public IPv6
    addresses whose result keeps a '.': an IPv4-mapped address with four
    '.'-fields, and one with a '.' in its first three ':'-groups.
   */
  lemma AnonymizeIdempotent(v6: string -> V6Kind, ip: string)
    requires !IsSpecialIP(ip) && ParseIP(v6, ip).IPv6? ==>
      && !(ParseIP(v6, ip).mapped && |Split(ip, '.')| == 4)
      && (|Split(ip, ':')| >= 3 ==> '.' !in ThreeGroups(Split(ip, ':')))
    ensures PreprocessIPInfo(v6, PreprocessIPInfo(v6, ip)) == PreprocessIPInfo(v6, ip)
  {
    if !IsSpecialIP(ip) && ParseIP(v6, ip).IPv4? {
      ParseIPv4Exactly(v6, ip);
      DottedQuadShape(ip);
      var p := Split(ip, '.');
      AnonymizeIPv4(v6, p[0], p[1], p[2], p[3]);
    } else if !IsSpecialIP(ip) && ParseIP(v6, ip).IPv6? && |Split(ip, ':')| >= 3 {
      PrefixIsStable(v6, Split(ip, ':'));
    }
  }

  /**
    The IPv6 result `g0:g1:g2::` without a '.' is left as it is by a second
    pass, whatever the IPv6 parser says about it.
   */
  lemma PrefixIsStable(v6: string -> V6Kind, g: seq<string>)
    requires |g| >= 3
    requires forall k :: 0 <= k < |g| ==> ':' !in g[k]
    requires '.' !in ThreeGroups(g)
    ensures PreprocessIPInfo(v6, ThreeGroups(g) + "::") == ThreeGroups(g) + "::"
  {
    var r := ThreeGroups(g) + "::";
    PrefixSplits(g);
    assert '.' !in r;
    NoDotSplit(r);
    assert ThreeGroups(Split(r, ':')) == ThreeGroups(g);
  }

  /** `g0:g1:g2::` splits on ':' into the three groups and two empty ones. */
  lemma PrefixSplits(g: seq<string>)
    requires |g| >= 3
    requires forall k :: 0 <= k < |g| ==> ':' !in g[k]
    ensures Split(ThreeGroups(g) + "::", ':') == [g[0], g[1], g[2], "", ""]
  {
    var parts := [g[0], g[1], g[2], "", ""];
    assert Join(parts[4..], ':') == "";
    assert parts[3..][1..] == parts[4..];
    assert Join(parts[3..], ':') == ":";
    assert parts[2..][1..] == parts[3..];
    assert Join(parts[2..], ':') == g[2] + "::";
    assert parts[1..][1..] == parts[2..];
    assert Join(parts[1..], ':') == g[1] + ":" + g[2] + "::";
    assert Join(parts, ':') == ThreeGroups(g) + "::";
    SplitJoin(parts, ':');
  }

  /** A text without '.' is a single '.'-field. */
  lemma NoDotSplit(s: string)
    requires '.' !in s
    ensures Split(s, '.') == [s]
  {
    assert FindChar(s, '.').None?;
  }

  /**
    An IPv6 address (not taken by the IPv4 branch) keeps the text of its
    first three ':'-groups, which is a prefix of the address, followed by "::".
   */
  lemma AnonymizeIPv6(v6: string -> V6Kind, ip: string)
    requires !IsSpecialIP(ip) && ParseIP(v6, ip).IPv6?
    requires !ParseIP(v6, ip).mapped || |Split(ip, '.')| != 4
    requires |Split(ip, ':')| >= 3
    ensures var kept := ThreeGroups(Split(ip, ':'));
      StartsWith(ip, kept) && PreprocessIPInfo(v6, ip) == kept + "::"
  {
    JoinKeepsThree(Split(ip, ':'), ':');
  }

  /** Joining at least three parts starts with the first three joined. */
  lemma JoinKeepsThree(g: seq<string>, c: char)
    requires |g| >= 3
    ensures StartsWith(Join(g, c), g[0] + [c] + g[1] + [c] + g[2])
  {
    var kept := g[0] + [c] + g[1] + [c] + g[2];
    assert g[1..][1..] == g[2..];
    if |g| == 3 {
      assert Join(g[2..], c) == g[2];
      assert Join(g, c) == kept;
    } else {
      assert Join(g[2..], c) == g[2] + [c] + Join(g[3..], c) by {
        assert g[2..][1..] == g[3..];
      }
      assert Join(g, c) == kept + [c] + Join(g[3..], c);
    }
  }

  /**
    `GetIPFromProcessedString`: the text before the first " - " when it is
    an IP address, together with the rest from " - " on; otherwise two
    empty strings.
   */
  function GetIPFromProcessedString(v6: string -> V6Kind, s: string): (r: (string, string))
    ensures r.0 == "" ==> r.1 == ""
    ensures r.0 != "" ==>
      && r.0 + r.1 == s
      && IsIP(v6, r.0)
      && StartsWith(r.1, " - ")
      && Index(s, " - ") == Some(|r.0|)
    ensures r.0 == "" <==> Index(s, " - ").None? || !IsIP(v6, s[..Index(s, " - ").value])
  {
    match Index(s, " - ")
    case None => ("", "")
    case Some(i) =>
      if IsIP(v6, s[..i]) then
        EmptyIsNotIP(v6);
        assert s[..i] + s[i..] == s;
        assert s[i..][..3] == s[i..i + 3];
        (s[..i], s[i..])
      else ("", "")
  }

  /**
    The splitter recovers the address from any processed string built as
    `<ip> - <text>` from an address free of spaces.
   */
  lemma SplitProcessed(v6: string -> V6Kind, ip: string, text: string)
    requires IsIP(v6, ip) && ' ' !in ip
    ensures GetIPFromProcessedString(v6, ip + " - " + text) == (ip, " - " + text)
  {
    var s := ip + " - " + text;
    forall j | 0 <= j < |ip|
      ensures !OccursAt(s, " - ", j)
    {
      assert s[j] == ip[j];
      if j + 3 <= |s| {
        assert s[j..j + 3][0] == s[j];
      }
    }
    assert OccursAt(s, " - ", |ip|);
    assert s[..|ip|] == ip;
    assert s[|ip|..] == " - " + text;
  }
}

=== FILE: bolt.dfy ===
/**
  The bbolt telemetry store of database/bolt/bolt.go. The one bucket
  `speedtest` is a sequence of key/value entries in cursor order (ascending
  keys); `None` means the bucket has not been created yet. Values are the
  JSON bytes of a record, produced and read back by a codec passed in.
 */
module Bolt {
  import opened Wrappers
  import opened KeyOrder
  import opened Schema

  type Blob = seq<bv8>

  datatype Entry = Entry(key: string, value: Blob)

  /** The entries of the bucket in cursor order. */
  type Bucket = seq<Entry>

  /** The database: the bucket, once it exists. */
  type Store = Option<Bucket>

  /** bbolt's limits on a key and on a value. */
  const MaxKeySize := 32768
  const MaxValueSize := 0x7FFF_FFFE

  datatype StoreError =
    | BucketMissing   // "storage bucket does not exist"
    | RecordNotFound  // "record not found"
    | DecodeFailed    // json.Unmarshal of a stored value failed
    | EncodeFailed    // json.Marshal of the record failed
    | KeyRequired     // bbolt: empty key
    | KeyTooLarge     // bbolt: key longer than MaxKeySize
    | ValueTooLarge   // bbolt: value longer than MaxValueSize
    | CommitFailed    // the write transaction could not be committed

  /** The JSON marshaller and unmarshaller for records. */
  datatype Codec = Codec(encode: TelemetryData -> Option<Blob>, decode: Blob -> Option<TelemetryData>)

  /** Whatever is encoded decodes back to the same record. */
  ghost predicate RoundTrips(codec: Codec) {
    forall d :: codec.encode(d).Some? ==> codec.decode(codec.encode(d).value) == Some(d)
  }

  /** Keys strictly ascend along the bucket: the B+tree order. */
  predicate Sorted(b: Bucket) {
    forall i, j :: 0 <= i < j < |b| ==> Less(b[i].key, b[j].key)
  }

  predicate ValidStore(s: Store) {
    s.Some? ==> Sorted(s.value)
  }

  /** The key/value mapping the bucket holds. */
  function AsMap(b: Bucket): map<string, Blob> {
    if |b| == 0 then map[] else AsMap(b[1..])[b[0].key := b[0].value]
  }

  /** The bucket's entries, none when it does not exist yet. */
  function Contents(s: Store): Bucket {
    if s.Some? then s.value else []
  }

  lemma {:induction false} KeyIndex(b: Bucket, k: string) returns (i: nat)
    requires k in AsMap(b)
    ensures i < |b| && b[i].key == k
    decreases |b|
  {
    if b[0].key == k {
      i := 0;
    } else {
      var j := KeyIndex(b[1..], k);
      i := j + 1;
    }
  }

  lemma {:induction false} IndexKey(b: Bucket, i: nat)
    requires i < |b|
    ensures b[i].key in AsMap(b)
    decreases |b|
  {
    if i > 0 {
      IndexKey(b[1..], i - 1);
    }
  }

  /** `bucket.Get(key)`. */
  function Get(b: Bucket, k: string): (r: Option<Blob>)
    ensures r.Some? <==> k in AsMap(b)
    ensures r.Some? ==> r.value == AsMap(b)[k]
  {
    if |b| == 0 then None
    else if b[0].key == k then Some(b[0].value)
    else Get(b[1..], k)
  }

  /** Stores `v` under `k` in key order, replacing an existing value. */
  function Put(b: Bucket, k: string, v: Blob): (r: Bucket)
    ensures AsMap(r) == AsMap(b)[k := v]
    ensures |r| == |b| || |r| == |b| + 1
  {
    if |b| == 0 then [Entry(k, v)]
    else if b[0].key == k then [Entry(k, v)] + b[1..]
    else if Less(k, b[0].key) then [Entry(k, v)] + b
    else
      var r := [b[0]] + Put(b[1..], k, v);
      assert r[1..] == Put(b[1..], k, v);
      r
  }

  /** Every key of the bucket sorts after `lo`. */
  predicate Above(b: Bucket, lo: string) {
    forall i :: 0 <= i < |b| ==> Less(lo, b[i].key)
  }

  lemma {:induction false} PutAbove(b: Bucket, k: string, v: Blob, lo: string)
    requires Above(b, lo) && Less(lo, k)
    ensures Above(Put(b, k, v), lo)
    decreases |b|
  {
    if |b| > 0 && b[0].key != k && !Less(k, b[0].key) {
      PutAbove(b[1..], k, v, lo);
    }
  }

  /** Inserting keeps the keys strictly ascending. */
  lemma {:induction false} PutKeepsSorted(b: Bucket, k: string, v: Blob)
    requires Sorted(b)
    ensures Sorted(Put(b, k, v))
    decreases |b|
  {
    if |b| > 0 && b[0].key != k {
      if Less(k, b[0].key) {
        var r := Put(b, k, v);
        forall i, j | 0 <= i < j < |r|
          ensures Less(r[i].key, r[j].key)
        {
          if i == 0 && j > 1 {
            LessTransitive(k, b[0].key, r[j].key);
          }
        }
      } else {
        LessTotal(k, b[0].key);
        PutKeepsSorted(b[1..], k, v);
        PutAbove(b[1..], k, v, b[0].key);
      }
    }
  }

  /** `bucket.Put` with bbolt's argument checks. */
  function CheckedPut(b: Bucket, k: string, v: Blob): (r: Result<Bucket, StoreError>)
    ensures r.Success? <==> 0 < |k| <= MaxKeySize && |v| <= MaxValueSize
    ensures r.Success? ==> AsMap(r.value) == AsMap(b)[k := v]
  {
    if |k| == 0 then Failure(KeyRequired)
    else if |k| > MaxKeySize then Failure(KeyTooLarge)
    else if |v| > MaxValueSize then Failure(ValueTooLarge)
    else Success(Put(b, k, v))
  }

  /** The store after the call, the record as stamped, and the error returned, if any. */
  datatype Saved = Saved(store: Store, record: TelemetryData, err: Option<StoreError>)

  /**
    `SaveTelemetry`: stamp the record with the time of the call, encode it,
    create the bucket if needed and put the value under the record's UUID,
    all in one write transaction (`commitOk` says whether its commit
    succeeds). Any error rolls the whole transaction back.
   */
  function SaveTelemetry(s: Store, data: TelemetryData, now: int, codec: Codec, commitOk: bool): (r: Saved)
    ensures r.record == data.(timestamp := now)
    ensures r.err.None? <==>
      && codec.encode(r.record).Some?
      && 0 < |data.uuid| <= MaxKeySize
      && |codec.encode(r.record).value| <= MaxValueSize
      && commitOk
    ensures r.err.Some? ==> r.store == s
    ensures r.err.None? ==>
      r.store.Some? && AsMap(r.store.value) == AsMap(Contents(s))[data.uuid := codec.encode(r.record).value]
  {
    var stamped := data.(timestamp := now);
    match codec.encode(stamped)
    case None => Saved(s, stamped, Some(EncodeFailed))
    case Some(blob) =>
      match CheckedPut(Contents(s), stamped.uuid, blob)
      case Failure(e) => Saved(s, stamped, Some(e))
      case Success(b) =>
        if commitOk then Saved(Some(b), stamped, None)
        else Saved(s, stamped, Some(CommitFailed))
  }

  lemma SaveKeepsValid(s: Store, data: TelemetryData, now: int, codec: Codec, commitOk: bool)
    requires ValidStore(s)
    ensures ValidStore(SaveTelemetry(s, data, now, codec, commitOk).store)
  {
    var r := SaveTelemetry(s, data, now, codec, commitOk);
    if r.err.None? {
      PutKeepsSorted(Contents(s), data.uuid, codec.encode(r.record).value);
    }
  }

  /** `GetTelemetryByUUID`: the two lookup errors, then the decoded record. */
  function GetTelemetryByUUID(s: Store, id: string, decode: Blob -> Option<TelemetryData>): (r: Result<TelemetryData, StoreError>)
    ensures s.None? ==> r == Failure(BucketMissing)
    ensures s.Some? && id !in AsMap(s.value) ==> r == Failure(RecordNotFound)
    ensures s.Some? && id in AsMap(s.value) ==>
      r == (match decode(AsMap(s.value)[id])
            case Some(d) => Success(d)
            case None => Failure(DecodeFailed))
  {
    if s.None? then Failure(BucketMissing)
    else
      match Get(s.value, id)
      case None => Failure(RecordNotFound)
      case Some(blob) =>
        match decode(blob)
        case Some(d) => Success(d)
        case None => Failure(DecodeFailed)
  }

  /**
    Round trip: after a successful save, looking the record up by its UUID
    gives it back with the save-time timestamp, when the codec round-trips.
   */
  lemma SaveThenGet(s: Store, data: TelemetryData, now: int, codec: Codec, commitOk: bool)
    requires RoundTrips(codec)
    requires SaveTelemetry(s, data, now, codec, commitOk).err.None?
    ensures GetTelemetryByUUID(SaveTelemetry(s, data, now, codec, commitOk).store, data.uuid, codec.decode)
      == Success(data.(timestamp := now))
  {
  }

  /** A save changes no other key, and a failed save changes nothing. */
  lemma SaveTouchesOnlyItsKey(s: Store, data: TelemetryData, now: int, codec: Codec, commitOk: bool, k: string)
    requires s.Some? && k != data.uuid
    ensures var s' := SaveTelemetry(s, data, now, codec, commitOk).store;
      s'.Some? && GetTelemetryByUUID(s', k, codec.decode) == GetTelemetryByUUID(s, k, codec.decode)
  {
  }

  /** The number of records `GetLastNRecords(limit)` walks over a bucket of `size` entries. */
  function WalkLength(limit: int, size: nat): (n: nat)
    ensures n <= size
    ensures limit <= 0 ==> n == 0
    ensures 0 <= limit <= size ==> n == limit
    ensures limit >= size ==> n == size
  {
    if limit <= 0 then 0 else if limit < size then limit else size
  }

  /** The last `n` entries of the bucket, newest first. */
  function Newest(b: Bucket, n: nat): (r: Bucket)
    requires n <= |b|
    ensures |r| == n
    ensures forall j :: 0 <= j < n ==> r[j] == b[|b| - 1 - j]
  {
    if n == 0 then [] else [b[|b| - 1]] + Newest(b[..|b| - 1], n - 1)
  }

  /** An entry among the newest `n` that does not decode spoils the whole walk. */
  lemma UndecodableInNewest(b: Bucket, n: nat, k: nat, decode: Blob -> Option<TelemetryData>)
    requires k < n <= |b|
    requires decode(b[|b| - 1 - k].value).None?
    ensures var newest := Newest(b, n);
      !(forall j :: 0 <= j < |newest| ==> decode(newest[j].value).Some?)
  {
    assert Newest(b, n)[k] == b[|b| - 1 - k];
  }

  /**
    `GetLastNRecords`: start the cursor at the last (largest) key and step
    backwards, decoding each value, until `limit` records are collected or
    the keys run out. A value that does not decode aborts the walk.
   */
  method GetLastNRecords(s: Store, limit: int, decode: Blob -> Option<TelemetryData>)
    returns (r: Result<seq<TelemetryData>, StoreError>)
    ensures s.None? ==> r == Failure(BucketMissing)
    ensures s.Some? ==> r.Failure? ==> r.error == DecodeFailed
    ensures s.Some? ==>
      var newest := Newest(s.value, WalkLength(limit, |s.value|));
      (r.Success? <==> forall j :: 0 <= j < |newest| ==> decode(newest[j].value).Some?)
    ensures s.Some? && r.Success? ==>
      var newest := Newest(s.value, WalkLength(limit, |s.value|));
      |r.value| == |newest|
      && forall j :: 0 <= j < |r.value| ==> decode(newest[j].value) == Some(r.value[j])
  {
    if s.None? {
      return Failure(BucketMissing);
    }
    var b := s.value;
    ghost var newest := Newest(b, WalkLength(limit, |b|));
    var records: seq<TelemetryData> := [];
    var pos := |b|;
    while |records| < limit && pos > 0
      invariant 0 <= pos <= |b|
      invariant |records| == |b| - pos
      invariant |records| <= WalkLength(limit, |b|)
      invariant forall j :: 0 <= j < |records| ==> decode(b[|b| - 1 - j].value) == Some(records[j])
    {
      var d := decode(b[pos - 1].value);
      if d.None? {
        UndecodableInNewest(b, WalkLength(limit, |b|), |records|, decode);
        return Failure(DecodeFailed);
      }
      records := records + [d.value];
      pos := pos - 1;
    }
    assert |records| == |newest|;
    assert forall j :: 0 <= j < |records| ==> newest[j] == b[|b| - 1 - j];
    assert forall j :: 0 <= j < |newest| ==> decode(newest[j].value) == Some(records[j]);
    return Success(records);
  }

  /**
    `GetAllTelemetry`: walk the cursor from the first (smallest) key to the
    end, decoding each value; a value that does not decode aborts the walk.
   */
  method GetAllTelemetry(s: Store, decode: Blob -> Option<TelemetryData>)
    returns (r: Result<seq<TelemetryData>, StoreError>)
    ensures s.None? ==> r == Failure(BucketMissing)
    ensures s.Some? ==> r.Failure? ==> r.error == DecodeFailed
    ensures s.Some? ==>
      (r.Success? <==> forall j :: 0 <= j < |s.value| ==> decode(s.value[j].value).Some?)
    ensures s.Some? && r.Success? ==>
      |r.value| == |s.value|
      && forall j :: 0 <= j < |r.value| ==> decode(s.value[j].value) == Some(r.value[j])
  {
    if s.None? {
      return Failure(BucketMissing);
    }
    var b := s.value;
    var records: seq<TelemetryData> := [];
    var pos := 0;
    while pos < |b|
      invariant 0 <= pos <= |b|
      invariant |records| == pos
      invariant forall j :: 0 <= j < pos ==> decode(b[j].value) == Some(records[j])
    {
      var d := decode(b[pos].value);
      if d.None? {
        return Failure(DecodeFailed);
      }
      records := records + [d.value];
      pos := pos + 1;
    }
    return Success(records);
  }

  /** In a sorted bucket every key appears once, so the bucket holds one entry per mapped key. */
  lemma {:induction false} SortedSize(b: Bucket)
    requires Sorted(b)
    ensures |AsMap(b)| == |b|
    decreases |b|
  {
    if |b| > 0 {
      SortedSize(b[1..]);
      if b[0].key in AsMap(b[1..]) {
        var i := KeyIndex(b[1..], b[0].key);
        assert Less(b[0].key, b[i + 1].key);
        LessIrreflexive(b[0].key);
      }
    }
  }

  /**
    The entries `GetLastNRecords` walks are the newest ones: their keys
    strictly decrease from the largest key of the bucket, and every key not
    walked sorts before all walked keys.
   */
  lemma LastNAreNewest(b: Bucket, n: nat)
    requires Sorted(b) && n <= |b|
    ensures var w := Newest(b, n);
      forall j, l :: 0 <= j < l < n ==> Less(w[l].key, w[j].key)
    ensures n > 0 ==> forall k :: k in AsMap(b) && k != Newest(b, n)[0].key ==> Less(k, Newest(b, n)[0].key)
    ensures var w := Newest(b, n);
      forall k :: k in AsMap(b) ==>
        (exists j :: 0 <= j < n && w[j].key == k) || forall j :: 0 <= j < n ==> Less(k, w[j].key)
  {
    var w := Newest(b, n);
    forall k | k in AsMap(b)
      ensures (exists j :: 0 <= j < n && w[j].key == k) || forall j :: 0 <= j < n ==> Less(k, w[j].key)
      ensures n > 0 && k != w[0].key ==> Less(k, w[0].key)
    {
      var i := KeyIndex(b, k);
      if i >= |b| - n {
        assert w[|b| - 1 - i].key == k;
      }
    }
  }

  /** `GetAllTelemetry` visits each stored key exactly once, in ascending order. */
  lemma AllInKeyOrder(b: Bucket)
    requires Sorted(b)
    ensures |AsMap(b)| == |b|
    ensures forall k :: k in AsMap(b) <==> exists j :: 0 <= j < |b| && b[j].key == k
  {
    SortedSize(b);
    forall k | k in AsMap(b)
      ensures exists j :: 0 <= j < |b| && b[j].key == k
    {
      var i := KeyIndex(b, k);
    }
    forall j | 0 <= j < |b|
      ensures b[j].key in AsMap(b)
    {
      IndexKey(b, j);
    }
  }
}

=== FILE: chart.dfy ===
/**
  The chart endpoint of web/chart.go: after the rate limiter admits the
  request, the newest `chartlist` records are fetched, their measurements
  parsed as floats and their ISP information anonymized and re-encoded.
  JSON decoding and encoding of `IspInfo` and `strconv.ParseFloat` are
  parameters.
 */
module Chart {
  import opened Wrappers
  import opened Text
  import opened Classify
  import opened NetIP
  import opened Schema
  import opened Bolt
  import opened RateLimit
  import opened Anonymize

  datatype RawIspInfo = RawIspInfo(
    ip: string,
    hostname: string,
    city: string,
    region: string,
    country: string,
    loc: string,
    org: string,
    postal: string,
    timezone: string,
    readme: string)

  /** The Go zero value of `RawIspInfo`. */
  const EmptyRawIspInfo := RawIspInfo("", "", "", "", "", "", "", "", "", "")

  datatype IspInfo = IspInfo(processedString: string, rawIspInfo: RawIspInfo)

  /** The processed string put in place of ISP information that does not decode ("unknown"). */
  const FallbackProcessed: string := "\U{672A}\U{77E5}"

  const FallbackIspInfo := IspInfo(FallbackProcessed, EmptyRawIspInfo)

  /** The float64 values `strconv.ParseFloat` can return. */
  datatype Float64 = Finite(r: real) | PosInf | NegInf | NaN

  /** What `strconv.ParseFloat(s, 64)` reports. */
  datatype FloatParse = Parsed(value: Float64) | SyntaxError | OutOfRange(negative: bool)

  /**
    The value `ParseFloat` returns alongside its error, which the handler
    keeps while discarding the error: 0 for a syntax error, an infinity of
    the right sign when the magnitude is out of range.
   */
  function FloatValue(p: FloatParse): (v: Float64)
    ensures p.Parsed? ==> v == p.value
    ensures p.SyntaxError? ==> v == Finite(0.0)
    ensures p.OutOfRange? ==> (v == NegInf <==> p.negative) && (v == PosInf <==> !p.negative)
  {
    match p
    case Parsed(x) => x
    case SyntaxError => Finite(0.0)
    case OutOfRange(negative) => if negative then NegInf else PosInf
  }

  /**
    The external pieces the handler uses: the IPv6 parser, `ParseFloat`,
    `json.Unmarshal`/`json.Marshal` of `IspInfo` (`None` for an error) and
    the store's record decoder.
   */
  datatype ChartEnv = ChartEnv(
    v6: string -> V6Kind,
    parseFloat: string -> FloatParse,
    decodeIsp: string -> Option<IspInfo>,
    encodeIsp: IspInfo -> Option<string>,
    decodeRecord: Blob -> Option<TelemetryData>)

  /** The stored ISP text decoded, or the fallback when it does not decode. */
  function DecodedIsp(env: ChartEnv, text: string): (info: IspInfo)
    ensures env.decodeIsp(text).Some? ==> info == env.decodeIsp(text).value
    ensures env.decodeIsp(text).None? ==> info == FallbackIspInfo
  {
    env.decodeIsp(text).GetOr(FallbackIspInfo)
  }

  /**
    The per-record rewrite: the processed string is split at its first
    " - ", the address before it is anonymized and the rest kept; the raw
    address is anonymized on its own. Nothing else changes.
   */
  function RewriteIsp(v6: string -> V6Kind, info: IspInfo): (r: IspInfo)
    ensures r.rawIspInfo == info.rawIspInfo.(ip := PreprocessIPInfo(v6, info.rawIspInfo.ip))
    ensures var ip := GetIPFromProcessedString(v6, info.processedString).0;
      && (ip == "" ==> r.processedString == "")
      && (ip != "" ==>
            IsIP(v6, ip)
            && info.processedString == ip + info.processedString[|ip|..]
            && r.processedString == PreprocessIPInfo(v6, ip) + info.processedString[|ip|..])
  {
    var (psIP, psRemaining) := GetIPFromProcessedString(v6, info.processedString);
    EmptyIsNotIP(v6);
    IspInfo(
      PreprocessIPInfo(v6, psIP) + psRemaining,
      info.rawIspInfo.(ip := PreprocessIPInfo(v6, info.rawIspInfo.ip)))
  }

  /**
    A processed string `a.b.c.d - <text>` for a public IPv4 address comes
    out as `a.b.c.x - <text>`, and a raw address `a.b.c.d` as `a.b.c.x`.
   */
  lemma RewritePublicIPv4(v6: string -> V6Kind, a: string, b: string, c: string, d: string, text: string, raw: RawIspInfo)
    requires IsOctetText(a) && IsOctetText(b) && IsOctetText(c) && IsOctetText(d)
    requires !IsSpecialIP(Dotted(a, b, c, d))
    ensures RewriteIsp(v6, IspInfo(Dotted(a, b, c, d) + " - " + text, raw)).processedString
      == Dotted(a, b, c, "x") + " - " + text
    ensures raw.ip == Dotted(a, b, c, d) ==>
      RewriteIsp(v6, IspInfo(Dotted(a, b, c, d) + " - " + text, raw)).rawIspInfo
        == raw.(ip := Dotted(a, b, c, "x"))
  {
    AnonymizeIPv4(v6, a, b, c, d);
    SplitDottedProcessed(v6, a, b, c, d, text);
  }

  /** The splitter takes a dotted quad back out of `a.b.c.d - <text>`. */
  lemma SplitDottedProcessed(v6: string -> V6Kind, a: string, b: string, c: string, d: string, text: string)
    requires IsOctetText(a) && IsOctetText(b) && IsOctetText(c) && IsOctetText(d)
    ensures GetIPFromProcessedString(v6, Dotted(a, b, c, d) + " - " + text) == (Dotted(a, b, c, d), " - " + text)
  {
    ParseDottedQuad(v6, a, b, c, d);
    DottedHasNoSpace(a, b, c, d);
    SplitProcessed(v6, Dotted(a, b, c, d), text);
  }

  lemma DottedHasNoSpace(a: string, b: string, c: string, d: string)
    requires AllDigits(a) && AllDigits(b) && AllDigits(c) && AllDigits(d)
    ensures ' ' !in Dotted(a, b, c, d)
  {
    assert ' ' !in a && ' ' !in b && ' ' !in c && ' ' !in d;
  }

  /**
    A processed string that names a non-public address (as `/getIP` writes
    it, `<ip> - <description>`) is kept as it is.
   */
  lemma RewriteKeepsSpecial(v6: string -> V6Kind, ip: string, text: string, raw: RawIspInfo)
    requires IsIP(v6, ip) && ' ' !in ip && FirstMatch(ip).Some?
    ensures RewriteIsp(v6, IspInfo(ip + " - " + text, raw)).processedString == ip + " - " + text
  {
    SplitProcessed(v6, ip, text);
  }

  /** A record whose ISP text does not decode is shown with empty ISP information. */
  lemma UndecodableIspIsBlank(v6: string -> V6Kind)
    ensures RewriteIsp(v6, FallbackIspInfo) == IspInfo("", EmptyRawIspInfo)
  {
    assert |FallbackProcessed| == 2;
    assert forall j :: !OccursAt(FallbackProcessed, " - ", j);
    EmptyIsNotIP(v6);
  }

  /** One element of the chart series. */
  datatype DataPoint = DataPoint(
    timestamp: int,
    download: Float64,
    upload: Float64,
    ping: Float64,
    jitter: Float64,
    isp: string)

  /** The re-encoded ISP information, "{}" when encoding fails. */
  function IspText(env: ChartEnv, info: IspInfo): (t: string)
    ensures env.encodeIsp(info).None? ==> t == "{}"
    ensures env.encodeIsp(info).Some? ==> t == env.encodeIsp(info).value
  {
    env.encodeIsp(info).GetOr("{}")
  }

  /** The chart point of one stored record. */
  function ChartPoint(env: ChartEnv, rec: TelemetryData): (p: DataPoint)
    ensures p.timestamp == rec.timestamp
    ensures p.download == FloatValue(env.parseFloat(rec.download))
    ensures p.upload == FloatValue(env.parseFloat(rec.upload))
    ensures p.ping == FloatValue(env.parseFloat(rec.ping))
    ensures p.jitter == FloatValue(env.parseFloat(rec.jitter))
    ensures p.isp == IspText(env, RewriteIsp(env.v6, DecodedIsp(env, rec.ispInfo)))
  {
    var info := RewriteIsp(env.v6, DecodedIsp(env, rec.ispInfo));
    DataPoint(
      rec.timestamp,
      FloatValue(env.parseFloat(rec.download)),
      FloatValue(env.parseFloat(rec.upload)),
      FloatValue(env.parseFloat(rec.ping)),
      FloatValue(env.parseFloat(rec.jitter)),
      IspText(env, info))
  }

  /**
    A record whose ISP text does not decode still gets a point, keeping its
    timestamp, and its ISP information is the empty one re-encoded.
   */
  lemma UndecodableRecordPoint(env: ChartEnv, rec: TelemetryData)
    requires env.decodeIsp(rec.ispInfo).None?
    ensures ChartPoint(env, rec).timestamp == rec.timestamp
    ensures ChartPoint(env, rec).isp == IspText(env, IspInfo("", EmptyRawIspInfo))
  {
    UndecodableIspIsBlank(env.v6);
  }

  /**
    A record saved from a public IPv4 address `a.b.c.d`, whose ISP
    information reads `a.b.c.d - <text>`, is charted with the ISP
    information of `a.b.c.x - <text>` and the raw address `a.b.c.x`.
   */
  lemma PublicIPv4RecordPoint(env: ChartEnv, rec: TelemetryData,
                              a: string, b: string, c: string, d: string, text: string, raw: RawIspInfo)
    requires IsOctetText(a) && IsOctetText(b) && IsOctetText(c) && IsOctetText(d)
    requires !IsSpecialIP(Dotted(a, b, c, d))
    requires raw.ip == Dotted(a, b, c, d)
    requires env.decodeIsp(rec.ispInfo) == Some(IspInfo(Dotted(a, b, c, d) + " - " + text, raw))
    ensures ChartPoint(env, rec).isp
      == IspText(env, IspInfo(Dotted(a, b, c, "x") + " - " + text, raw.(ip := Dotted(a, b, c, "x"))))
  {
    RewritePublicIPv4(env.v6, a, b, c, d, text, raw);
  }

  /** The loop over the fetched records: one point per record, in the same order. */
  method ChartSeries(env: ChartEnv, records: seq<TelemetryData>) returns (points: seq<DataPoint>)
    ensures |points| == |records|
    ensures forall j :: 0 <= j < |records| ==> points[j] == ChartPoint(env, records[j])
  {
    points := MapInOrder(rec => ChartPoint(env, rec), records);
  }

  /** `f` applied to each element, front to back. */
  method MapInOrder<A, B>(f: A -> B, xs: seq<A>) returns (ys: seq<B>)
    ensures |ys| == |xs|
    ensures forall j :: 0 <= j < |xs| ==> ys[j] == f(xs[j])
  {
    ys := [];
    var i := 0;
    while i < |xs|
      invariant 0 <= i <= |xs|
      invariant |ys| == i
      invariant forall j :: 0 <= j < i ==> ys[j] == f(xs[j])
    {
      ys := ys + [f(xs[i])];
      i := i + 1;
    }
  }

  /** The three replies: 429, 500 with the store's error, or 200 with the series. */
  datatype ChartResponse = TooManyRequests | ServerError(error: StoreError) | Points(points: seq<DataPoint>)

  /**
    `GetChartData`: `limiter` is the global limiter's state, `now` the
    clock, `chartlist` the configured number of points.
   */
  method GetChartData(limiter: Limiter, now: int, store: Store, chartlist: int, env: ChartEnv)
    returns (next: Limiter, resp: ChartResponse)
    ensures next == Allow(limiter, now).next
    ensures resp.TooManyRequests? <==> !Allow(limiter, now).allowed
    ensures Allow(limiter, now).allowed && store.None? ==> resp == ServerError(BucketMissing)
    ensures store.Some? && resp.ServerError? ==> resp.error == DecodeFailed
    ensures Allow(limiter, now).allowed && store.Some? ==>
      var newest := Newest(store.value, WalkLength(chartlist, |store.value|));
      (resp.Points? <==> forall j :: 0 <= j < |newest| ==> env.decodeRecord(newest[j].value).Some?)
    ensures resp.Points? ==> store.Some?
    ensures resp.Points? && store.Some? ==>
      var newest := Newest(store.value, WalkLength(chartlist, |store.value|));
      && |resp.points| == |newest|
      && forall j :: 0 <= j < |newest| ==>
           env.decodeRecord(newest[j].value).Some?
           && resp.points[j] == ChartPoint(env, env.decodeRecord(newest[j].value).value)
  {
    var d := Allow(limiter, now);
    next := d.next;
    if !d.allowed {
      return next, TooManyRequests;
    }
    var fetched := GetLastNRecords(store, chartlist, env.decodeRecord);
    match fetched {
      case Failure(e) =>
        resp := ServerError(e);
      case Success(records) =>
        var points := ChartSeries(env, records);
        resp := Points(points);
    }
  }

  /**
    The worked example: a record saved from 203.0.113.9 is shown as
    coming from 203.0.113.x, in both the processed string and the raw
    address, whatever the ISP text is.
   */
  lemma ExampleAnonymized(v6: string -> V6Kind, text: string, raw: RawIspInfo)
    requires raw.ip == "203.0.113.9"
    ensures RewriteIsp(v6, IspInfo("203.0.113.9" + " - " + text, raw))
      == IspInfo("203.0.113.x" + " - " + text, raw.(ip := "203.0.113.x"))
  {
    ExampleAddresses();
    ExampleOctets();
    PublicExample();
    RewritePublicIPv4(v6, "203", "0", "113", "9", text, raw);
  }

  lemma ExampleAddresses()
    ensures "203.0.113.9" == Dotted("203", "0", "113", "9")
    ensures "203.0.113.x" == Dotted("203", "0", "113", "x")
  {
  }

  lemma ExampleOctets()
    ensures IsOctetText("203") && IsOctetText("0") && IsOctetText("113") && IsOctetText("9")
  {
    assert "203"[..2] == "20" && "20"[..1] == "2" && "2"[..0] == "";
    assert "113"[..2] == "11" && "11"[..1] == "1" && "1"[..0] == "";
    assert "0"[..0] == "" && "9"[..0] == "";
  }

  lemma PublicExample()
    ensures !IsSpecialIP("203.0.113.9")
  {
    var s := "203.0.113.9";
    assert s[0] == '2' && s[1] == '0' && |s| == 11;
    forall p: Pattern
      ensures !Matches(p, s)
    {
    }
  }
}

=== FILE: classify.dfy ===
/**
  The ten address patterns of the `/getIP` handler and its first-match
  cascade (web/getip.go). Each Go regular expression is written out as a
  string predicate: `^x$` is whole-string equality, `^x` is a prefix test.
 */
module Classify {
  import opened Wrappers
  import opened Text

  datatype Pattern =
    | LoopbackIPv6   // ^::1$
    | LinkLocalIPv6  // ^fe80:
    | LoopbackIPv4   // ^127\.
    | Private10      // ^10\.
    | Private172     // ^172\.(1[6-9]|2\d|3[01])\.
    | Private192     // ^192\.168\.
    | LinkLocalIPv4  // ^169\.254\.
    | Cgnat          // ^100\.([6-9][0-9]|1[0-2][0-7])\.
    | Unspecified    // ^0\.0\.0\.0$
    | Broadcast      // ^255\.255\.255\.255$

  /** The patterns anchored at both ends. */
  predicate IsExact(p: Pattern) {
    p.LoopbackIPv6? || p.Unspecified? || p.Broadcast?
  }

  /** `172.` followed by a second octet text 16..31 and a dot. */
  predicate Private172Match(s: string) {
    && StartsWith(s, "172.")
    && |s| >= 7
    && s[6] == '.'
    && ((s[4] == '1' && '6' <= s[5] <= '9')
        || (s[4] == '2' && IsDigit(s[5]))
        || (s[4] == '3' && (s[5] == '0' || s[5] == '1')))
  }

  /** `100.` followed by `[6-9][0-9]` or `1[0-2][0-7]` and a dot. */
  predicate CgnatMatch(s: string) {
    && StartsWith(s, "100.")
    && ((|s| >= 7 && '6' <= s[4] <= '9' && IsDigit(s[5]) && s[6] == '.')
        || (|s| >= 8 && s[4] == '1' && '0' <= s[5] <= '2' && '0' <= s[6] <= '7' && s[7] == '.'))
  }

  predicate Matches(p: Pattern, s: string) {
    match p
    case LoopbackIPv6 => s == "::1"
    case LinkLocalIPv6 => StartsWith(s, "fe80:")
    case LoopbackIPv4 => StartsWith(s, "127.")
    case Private10 => StartsWith(s, "10.")
    case Private172 => Private172Match(s)
    case Private192 => StartsWith(s, "192.168.")
    case LinkLocalIPv4 => StartsWith(s, "169.254.")
    case Cgnat => CgnatMatch(s)
    case Unspecified => s == "0.0.0.0"
    case Broadcast => s == "255.255.255.255"
  }

  /** The text appended after " - " for an address matching `p`. */
  function Suffix(p: Pattern): string {
    match p
    case LoopbackIPv6 => "localhost IPv6 access"
    case LinkLocalIPv6 => "link-local IPv6 access"
    case LoopbackIPv4 => "localhost IPv4 access"
    case Private10 => "private IPv4 access"
    case Private172 => "private IPv4 access"
    case Private192 => "private IPv4 access"
    case LinkLocalIPv4 => "link-local IPv4 access"
    case Cgnat => "CGNAT IPv4 access"
    case Unspecified => "unspecified address"
    case Broadcast => "broadcast address"
  }

  /** The order of the `switch` cases in `getIP`. */
  const Cascade: seq<Pattern> := [
    LoopbackIPv6, LinkLocalIPv6, LoopbackIPv4, Private10, Private172,
    Private192, LinkLocalIPv4, Cgnat, Unspecified, Broadcast
  ]

  /** The position of each pattern in `Cascade`. */
  function Rank(p: Pattern): (r: nat)
    ensures r < |Cascade| && Cascade[r] == p
  {
    match p
    case LoopbackIPv6 => 0
    case LinkLocalIPv6 => 1
    case LoopbackIPv4 => 2
    case Private10 => 3
    case Private172 => 4
    case Private192 => 5
    case LinkLocalIPv4 => 6
    case Cgnat => 7
    case Unspecified => 8
    case Broadcast => 9
  }

  /** The index of the first pattern at or after `i` in `Cascade` that matches `s`. */
  function FirstMatchFrom(s: string, i: nat): (r: Option<nat>)
    requires i <= |Cascade|
    ensures r.Some? ==> i <= r.value < |Cascade| && Matches(Cascade[r.value], s)
    ensures r.Some? ==> forall j :: i <= j < r.value ==> !Matches(Cascade[j], s)
    ensures r.None? ==> forall j :: i <= j < |Cascade| ==> !Matches(Cascade[j], s)
    decreases |Cascade| - i
  {
    if i == |Cascade| then None
    else if Matches(Cascade[i], s) then Some(i)
    else FirstMatchFrom(s, i + 1)
  }

  /** The pattern whose case the `switch` of `getIP` takes, if any. */
  function FirstMatch(s: string): (r: Option<Pattern>)
    ensures r.Some? ==> Matches(r.value, s)
    ensures r.Some? ==> exists i :: (0 <= i < |Cascade| && Cascade[i] == r.value
      && forall j :: 0 <= j < i ==> !Matches(Cascade[j], s))
    ensures r.None? <==> forall p: Pattern :: !Matches(p, s)
  {
    match FirstMatchFrom(s, 0)
    case None =>
      assert forall p: Pattern :: !Matches(Cascade[Rank(p)], s);
      None
    case Some(i) => Some(Cascade[i])
  }

  /** The `ProcessedString` the `switch` of `getIP` builds for the address `s`. */
  function Processed(s: string): (r: string)
    ensures StartsWith(r, s)
    ensures FirstMatch(s).None? ==> r == s
    ensures FirstMatch(s).Some? ==> r[|s|..] == " - " + Suffix(FirstMatch(s).value)
    ensures FirstMatch(s).Some? ==> Contains(r, " - ")
  {
    match FirstMatch(s)
    case Some(p) =>
      var r := s + " - " + Suffix(p);
      assert r[|s|..|s| + 3] == " - ";
      ContainsAt(r, " - ", |s|);
      r
    case None => s
  }

  /** The prefix patterns still match after any text is appended. */
  lemma PrefixPatternExtends(p: Pattern, s: string, t: string)
    requires !IsExact(p) && Matches(p, s)
    ensures Matches(p, s + t)
  {
    var st := s + t;
    match p
    case LinkLocalIPv6 => assert st[..5] == s[..5];
    case LoopbackIPv4 => assert st[..4] == s[..4];
    case Private10 => assert st[..3] == s[..3];
    case Private172 => assert st[..7] == s[..7];
    case Private192 => assert st[..8] == s[..8];
    case LinkLocalIPv4 => assert st[..8] == s[..8];
    case Cgnat => assert |s| >= 7 && st[..7] == s[..7];
      if !(|s| >= 7 && '6' <= s[4] <= '9' && IsDigit(s[5]) && s[6] == '.') {
        assert st[..8] == s[..8];
      }
  }

  /** The exact patterns stop matching as soon as any text is appended. */
  lemma ExactPatternStopsOnExtension(p: Pattern, s: string, t: string)
    requires IsExact(p) && Matches(p, s) && |t| > 0
    ensures !Matches(p, s + t)
  {
    assert |s + t| > |s|;
  }

  /** No address matches two of the ten patterns, so the cascade order never decides a tie. */
  lemma PatternsDisjoint(s: string, i: nat, j: nat)
    requires i < j < |Cascade|
    ensures !(Matches(Cascade[i], s) && Matches(Cascade[j], s))
  {
    if |s| >= 3 {
      assert s[..3] == [s[0], s[1], s[2]];
    }
    if |s| >= 4 {
      assert s[..4] == [s[0], s[1], s[2], s[3]];
    }
    if |s| >= 5 {
      assert s[..5] == [s[0], s[1], s[2], s[3], s[4]];
    }
  }

  /**
    For an address `100.o.rest` with a canonical second octet `o`, the CGNAT
    pattern accepts exactly the octet values 60..99 and the values 100..127
    whose last digit is at most 7. The shared address space of RFC 6598
    (100.64.0.0/10) is the octet range 64..127, so the pattern admits
    100.60-100.63 and misses 100.108, 100.109, 100.118 and 100.119.
   */
  lemma CgnatPatternOctets(o: string, rest: string)
    requires IsOctetText(o)
    ensures var v := DecimalValue(o);
      CgnatMatch("100." + o + "." + rest) <==>
        (60 <= v <= 99 || (100 <= v <= 127 && v % 10 <= 7))
  {
    var s := "100." + o + "." + rest;
    assert s[..4] == "100.";
    assert s[4] == o[0];
    assert s[4 + |o|] == '.';
    if |o| >= 2 {
      assert s[5] == o[1];
      assert o[..1] == [o[0]];
      assert o[..2] == o[..1] + [o[1]];
    }
    if |o| == 3 {
      assert s[6] == o[2];
      assert o[..3] == o;
      assert o[..2][..1] == o[..1];
      assert DecimalValue(o[..1]) == o[0] as int - '0' as int;
      assert DecimalValue(o[..2]) == (o[0] as int - '0' as int) * 10 + (o[1] as int - '0' as int);
      assert DecimalValue(o) == DecimalValue(o[..2]) * 10 + (o[2] as int - '0' as int);
    } else if |o| == 2 {
      assert o[..2] == o;
      assert DecimalValue(o[..1]) == o[0] as int - '0' as int;
      assert DecimalValue(o) == (o[0] as int - '0' as int) * 10 + (o[1] as int - '0' as int);
    } else {
      assert o[..1] == o;
    }
  }

  /**
    Concrete witnesses of the mismatch between the CGNAT pattern and
    100.64.0.0/10: 100.60.0.1 is classified as CGNAT, 100.108.0.1 is not.
   */
  lemma CgnatPatternIsNotTheSharedBlock()
    ensures CgnatMatch("100.60.0.1") && FirstMatch("100.60.0.1") == Some(Cgnat)
    ensures !CgnatMatch("100.108.0.1") && FirstMatch("100.108.0.1") != Some(Cgnat)
    ensures CgnatMatch("100.64.0.1") && CgnatMatch("100.127.0.1")
  {
    assert "100.60.0.1"[..4] == "100.";
    assert "100.64.0.1"[..4] == "100.";
    assert "100.127.0.1"[..4] == "100.";
    OnlyMatch(Cgnat, "100.60.0.1");
  }

  /** Since the patterns are disjoint, the one pattern an address matches is the one the cascade finds. */
  lemma OnlyMatch(p: Pattern, s: string)
    requires Matches(p, s)
    ensures FirstMatch(s) == Some(p)
  {
    var q := FirstMatch(s).value;
    if Rank(q) < Rank(p) {
      PatternsDisjoint(s, Rank(q), Rank(p));
      assert false;
    } else if Rank(p) < Rank(q) {
      PatternsDisjoint(s, Rank(p), Rank(q));
      assert false;
    }
  }
}

=== FILE: garbage.dfy ===
/**
  The `/garbage` download of web/garbage.go: the number of 1 MiB chunks is
  read from the `ckSize` query value and that many copies of the random
  block are written, stopping at the first failed write. Whether each
  write succeeds is a parameter; the block's contents are not modelled.
 */
module Garbage {
  import opened Wrappers
  import opened Text

  const DefaultChunks: nat := 8
  const MaxChunks: nat := 1024

  const MinInt64: int := -0x8000_0000_0000_0000
  const MaxInt64: int := 0x7FFF_FFFF_FFFF_FFFF

  /** The sign and the digits of a decimal integer text. */
  datatype Signed = Signed(negative: bool, digits: string)

  function SplitSign(s: string): (r: Signed)
    ensures s == (if |s| > 0 && (s[0] == '+' || s[0] == '-') then [s[0]] else []) + r.digits
    ensures r.negative <==> |s| > 0 && s[0] == '-'
  {
    if |s| > 0 && (s[0] == '+' || s[0] == '-') then Signed(s[0] == '-', s[1..]) else Signed(false, s)
  }

  /**
    `strconv.ParseInt(s, 10, 64)`: an optional sign and at least one
    decimal digit, the value within the 64-bit signed range; `None` for
    every text it rejects (syntax or range error).
   */
  function ParseInt10(s: string): (r: Option<int>)
    ensures r.Some? ==> MinInt64 <= r.value <= MaxInt64
    ensures r.Some? ==> |SplitSign(s).digits| >= 1 && AllDigits(SplitSign(s).digits)
    ensures r.Some? ==>
      r.value == (if SplitSign(s).negative then -1 else 1) * DecimalValue(SplitSign(s).digits)
    ensures r.None? <==>
      || |SplitSign(s).digits| == 0
      || !AllDigits(SplitSign(s).digits)
      || !(MinInt64 <= (if SplitSign(s).negative then -1 else 1) * DecimalValue(SplitSign(s).digits) <= MaxInt64)
  {
    var sd := SplitSign(s);
    if |sd.digits| == 0 || !AllDigits(sd.digits) then None
    else
      var v := (if sd.negative then -1 else 1) * DecimalValue(sd.digits);
      if MinInt64 <= v <= MaxInt64 then Some(v) else None
  }

  function DigitChar(d: nat): (c: char)
    requires d < 10
    ensures IsDigit(c) && c as int - '0' as int == d
  {
    ('0' as int + d) as char
  }

  /** The decimal digits of `n`, most significant first (`strconv.Itoa` of a non-negative number). */
  function Digits(n: nat): (s: string)
    ensures |s| >= 1 && AllDigits(s)
    decreases n
  {
    if n < 10 then [DigitChar(n)] else Digits(n / 10) + [DigitChar(n % 10)]
  }

  /** `strconv.Itoa(n)`. */
  function FormatInt(n: int): string {
    if n < 0 then "-" + Digits(-n) else Digits(n)
  }

  lemma {:induction false} DigitsValue(n: nat)
    ensures DecimalValue(Digits(n)) == n
    decreases n
  {
    if n >= 10 {
      var s := Digits(n);
      DigitsValue(n / 10);
      assert s[..|s| - 1] == Digits(n / 10);
    }
  }

  /** Round trip: every 64-bit integer printed in decimal parses back to itself. */
  lemma ParseFormatted(n: int)
    requires MinInt64 <= n <= MaxInt64
    ensures ParseInt10(FormatInt(n)) == Some(n)
  {
    if n < 0 {
      DigitsValue(-n);
      assert SplitSign(FormatInt(n)).digits == Digits(-n);
    } else {
      DigitsValue(n);
      assert Digits(n)[0] != '+' && Digits(n)[0] != '-';
    }
  }

  /**
    The chunk count for a `ckSize` value: 8 when absent, no download at
    all (`None`) when it does not parse, otherwise the value capped at
    1024, with 8 for a value that is not positive.
   */
  function Chunks(ckSize: string): (r: Option<nat>)
    ensures r.Some? ==> 1 <= r.value <= MaxChunks
    ensures r.None? <==> ckSize != "" && ParseInt10(ckSize).None?
    ensures ckSize == "" ==> r == Some(DefaultChunks)
    ensures ckSize != "" && ParseInt10(ckSize).Some? ==>
      var i := ParseInt10(ckSize).value;
      r == Some(if i > MaxChunks then MaxChunks else if i > 0 then i else DefaultChunks)
  {
    if ckSize == "" then Some(DefaultChunks)
    else
      match ParseInt10(ckSize)
      case None => None
      case Some(i) => Some(if i > MaxChunks as int then MaxChunks else if i > 0 then i else DefaultChunks)
  }

  /** Asking for `n` chunks, written as a decimal number, gets `n` chunks when 1 <= n <= 1024. */
  lemma RequestedChunks(n: int)
    requires MinInt64 <= n <= MaxInt64
    ensures 1 <= n <= MaxChunks ==> Chunks(FormatInt(n)) == Some(n)
    ensures n > MaxChunks ==> Chunks(FormatInt(n)) == Some(MaxChunks)
    ensures n <= 0 ==> Chunks(FormatInt(n)) == Some(DefaultChunks)
  {
    ParseFormatted(n);
    assert FormatInt(n) != "" by {
      if n < 0 {
        assert |FormatInt(n)| == 1 + |Digits(-n)|;
      }
    }
  }

  /** The download: how many chunks were written and whether a write failed. */
  datatype Download = Download(written: nat, failed: bool)

  /**
    `garbage`: `writeOk(i)` says whether writing the i-th copy of the block
    succeeds. The loop stops at the first failure.
   */
  method Garbage(ckSize: string, writeOk: nat -> bool) returns (d: Download)
    ensures Chunks(ckSize).None? ==> d == Download(0, false)
    ensures Chunks(ckSize).Some? ==>
      var n := Chunks(ckSize).value;
      && d.written <= n
      && (forall i :: 0 <= i < d.written ==> writeOk(i))
      && (d.failed <==> exists i :: 0 <= i < n && !writeOk(i))
      && (d.failed ==> d.written < n && !writeOk(d.written))
      && (!d.failed ==> d.written == n)
  {
    var chunks := Chunks(ckSize);
    if chunks.None? {
      return Download(0, false);
    }
    var n := chunks.value;
    var i: nat := 0;
    while i < n
      invariant i <= n
      invariant forall j :: 0 <= j < i ==> writeOk(j)
    {
      if !writeOk(i) {
        return Download(i, true);
      }
      i := i + 1;
    }
    return Download(n, false);
  }
}

=== FILE: getip.dfy ===
/**
  The `/getIP` handler of web/getip.go: classify the client address, stop
  early for a non-public one, and otherwise optionally enrich it with the
  ISP name and country from an external lookup service.
 */
module GetIP {
  import opened Text
  import opened Classify
  import opened Results

  /** Go's regexp class `\s`: tab, newline, form feed, carriage return, space. */
  predicate IsSpaceRE(ch: char) {
    ch == '\t' || ch == '\n' || ch == '\U{000C}' || ch == '\r' || ch == ' '
  }

  /** The length of the run of decimal digits at the start of `s`. */
  function DigitRun(s: string): (n: nat)
    ensures n <= |s| && AllDigits(s[..n])
    ensures n == |s| || !IsDigit(s[n])
  {
    if |s| == 0 || !IsDigit(s[0]) then 0
    else
      var n := DigitRun(s[1..]) + 1;
      assert s[..n] == [s[0]] + s[1..][..n - 1];
      n
  }

  /**
    The length of a match of `AS\d+\s` at the start of `s`, or 0. Since a
    digit is never white space, `\d+` must take the whole digit run.
   */
  function TokenLength(s: string): (n: nat)
    ensures n == 0 || 4 <= n <= |s|
  {
    if |s| >= 2 && s[0] == 'A' && s[1] == 'S' then
      var d := DigitRun(s[2..]);
      if d >= 1 && 2 + d < |s| && IsSpaceRE(s[2 + d]) then d + 3 else 0
    else 0
  }

  /**
    `removeASRegexp.ReplaceAllString(s, "")`: scanning left to right, every
    leftmost `AS<digits><white space>` token is deleted and the scan resumes
    after it.
   */
  function RemoveAS(s: string): (r: string)
    ensures |r| <= |s|
    decreases |s|
  {
    if |s| == 0 then ""
    else
      var n := TokenLength(s);
      if n > 0 then RemoveAS(s[n..]) else [s[0]] + RemoveAS(s[1..])
  }

  /** A whole `AS<digits><white space>` token is deleted. */
  lemma RemoveASToken(digits: string, ws: char, rest: string)
    requires |digits| >= 1 && AllDigits(digits) && IsSpaceRE(ws)
    ensures RemoveAS("AS" + digits + [ws] + rest) == RemoveAS(rest)
  {
    var s := "AS" + digits + [ws] + rest;
    DigitRunOf(digits, [ws] + rest);
    assert s[2..] == digits + ([ws] + rest);
    assert s[2 + |digits|] == ws;
    assert TokenLength(s) == |digits| + 3;
    assert s[|digits| + 3..] == rest;
  }

  lemma {:induction false} DigitRunOf(digits: string, rest: string)
    requires AllDigits(digits)
    requires |rest| == 0 || !IsDigit(rest[0])
    ensures DigitRun(digits + rest) == |digits|
    decreases |digits|
  {
    if |digits| > 0 {
      assert (digits + rest)[0] == digits[0];
      assert (digits + rest)[1..] == digits[1..] + rest;
      DigitRunOf(digits[1..], rest);
    } else {
      assert digits + rest == rest;
    }
  }

  /** A character other than 'A' never starts a token and is kept. */
  lemma RemoveASKeeps(c: char, rest: string)
    requires c != 'A'
    ensures RemoveAS([c] + rest) == [c] + RemoveAS(rest)
  {
    assert ([c] + rest)[1..] == rest;
  }

  /** `s` starts with a match of `AS\d+\s`, stated independently of `TokenLength`. */
  ghost predicate StartsWithToken(s: string) {
    exists d: string, w: char, rest: string ::
      |d| >= 1 && AllDigits(d) && IsSpaceRE(w) && s == "AS" + d + [w] + rest
  }

  /** `TokenLength` finds a token exactly where a match of `AS\d+\s` starts. */
  lemma TokenIsMatch(s: string)
    ensures TokenLength(s) > 0 <==> StartsWithToken(s)
  {
    if StartsWithToken(s) {
      var d: string, w: char, rest: string :|
        |d| >= 1 && AllDigits(d) && IsSpaceRE(w) && s == "AS" + d + [w] + rest;
      DigitRunOf(d, [w] + rest);
      assert s[2..] == d + ([w] + rest);
      assert s[2 + |d|] == w;
      assert s[0] == 'A' && s[1] == 'S';
    }
    if TokenLength(s) > 0 {
      var n := DigitRun(s[2..]);
      var d := s[2..2 + n];
      var w := s[2 + n];
      var rest := s[3 + n..];
      assert d == s[2..][..n];
      assert s == s[..2] + d + [w] + rest;
      assert s[..2] == "AS";
    }
  }

  /** A character that does not start an `AS\d+\s` match is kept, and the scan moves on. */
  lemma RemoveASKeepsUnmatched(s: string)
    requires |s| > 0 && !StartsWithToken(s)
    ensures RemoveAS(s) == [s[0]] + RemoveAS(s[1..])
  {
    TokenIsMatch(s);
  }

  /** A text in which no `AS\d+\s` match starts anywhere is left unchanged. */
  lemma {:induction false} RemoveASWithoutToken(s: string)
    requires forall i :: 0 <= i < |s| ==> !StartsWithToken(s[i..])
    ensures RemoveAS(s) == s
    decreases |s|
  {
    if |s| > 0 {
      assert s[0..] == s;
      RemoveASKeepsUnmatched(s);
      forall i | 0 <= i < |s[1..]|
        ensures !StartsWithToken(s[1..][i..])
      {
        assert s[1..][i..] == s[i + 1..];
      }
      RemoveASWithoutToken(s[1..]);
      assert s == [s[0]] + s[1..];
    }
  }

  /** A match of `AS\d+\s` needs "AS" followed by a digit. */
  lemma NoTokenWithoutASDigit(s: string)
    requires forall i :: 0 <= i < |s| - 2 ==> !(s[i] == 'A' && s[i + 1] == 'S' && IsDigit(s[i + 2]))
    ensures forall i :: 0 <= i < |s| ==> !StartsWithToken(s[i..])
  {
    forall i | 0 <= i < |s|
      ensures !StartsWithToken(s[i..])
    {
      TokenIsMatch(s[i..]);
      if 2 < |s[i..]| {
        assert s[i..][0] == s[i] && s[i..][1] == s[i + 1];
        assert s[i..][2..][0] == s[i + 2];
      }
    }
  }

  /** A text in which "AS" never occurs is left unchanged. */
  lemma {:induction false} RemoveASWithoutAS(s: string)
    requires forall i :: !OccursAt(s, "AS", i)
    ensures RemoveAS(s) == s
    decreases |s|
  {
    if |s| > 0 {
      assert !OccursAt(s, "AS", 0);
      if |s| >= 2 {
        assert s[..2] == [s[0], s[1]];
      }
      assert TokenLength(s) == 0;
      forall i | true
        ensures !OccursAt(s[1..], "AS", i)
      {
        assert !OccursAt(s, "AS", i + 1);
        if 0 <= i && i + 2 <= |s| - 1 {
          assert s[1..][i..i + 2] == s[i + 1..i + 3];
        }
      }
      RemoveASWithoutAS(s[1..]);
      assert s == [s[0]] + s[1..];
    }
  }

  /** The ISP name: the organisation without AS numbers, or "Unknown ISP" when nothing is left. */
  function IspName(isp: string): (r: string)
    ensures r != ""
    ensures RemoveAS(isp) != "" ==> r == RemoveAS(isp)
    ensures RemoveAS(isp) == "" ==> r == "Unknown ISP"
  {
    var stripped := RemoveAS(isp);
    if stripped == "" then "Unknown ISP" else stripped
  }

  /** The ISP text appended to the processed string: the ISP name, then ", <country>" if known. */
  function IspString(info: IPInfoResponse): (r: string)
    ensures StartsWith(r, IspName(info.isp))
    ensures info.countryName == "" ==> r == IspName(info.isp)
    ensures info.countryName != "" ==> r[|IspName(info.isp)|..] == ", " + info.countryName
  {
    var isp := IspName(info.isp);
    if info.countryName != "" then isp + ", " + info.countryName else isp
  }

  /** `getIPInfo` of web/helpers.go: no lookup for an empty address, else the service's answer. */
  function GetIPInfo(lookup: string -> IPInfoResponse, addr: string): IPInfoResponse {
    if addr == "" then EmptyIPInfo else lookup(addr)
  }

  /** The JSON reply of `/getIP` and whether `getIPInfo` is called. */
  datatype Reply = Reply(ret: GetIPResult, lookedUp: bool)

  /**
    `getIP`: `ispQuery` is the `isp` query value and `lookup` stands for the
    outbound request to the IP lookup service.
   */
  function HandleGetIP(clientIP: string, ispQuery: string, lookup: string -> IPInfoResponse): (r: Reply)
    ensures StartsWith(r.ret.processedString, clientIP)
    ensures r.lookedUp <==>
      FirstMatch(clientIP).None? && !Contains(clientIP, " - ") && ispQuery == "true"
    ensures !r.lookedUp ==> r.ret == GetIPResult(Processed(clientIP), EmptyIPInfo)
    ensures r.lookedUp ==>
      var info := GetIPInfo(lookup, clientIP);
      r.ret == GetIPResult(clientIP + " - " + IspString(info), info)
  {
    var ps := Processed(clientIP);
    if Contains(ps, " - ") then Reply(GetIPResult(ps, EmptyIPInfo), false)
    else if ispQuery != "true" then Reply(GetIPResult(ps, EmptyIPInfo), false)
    else
      var info := GetIPInfo(lookup, clientIP);
      Reply(GetIPResult(ps + " - " + IspString(info), info), true)
  }

  /**
    For an address without " - " in it, the early return (no lookup, empty
    raw ISP information) is taken exactly when one of the ten patterns
    matches, whatever the `isp` query says.
   */
  lemma EarlyReturnIffSpecial(clientIP: string, ispQuery: string, lookup: string -> IPInfoResponse)
    requires !Contains(clientIP, " - ")
    ensures var r := HandleGetIP(clientIP, "true", lookup);
      !r.lookedUp <==> exists p: Pattern :: Matches(p, clientIP)
    ensures FirstMatch(clientIP).Some? ==>
      HandleGetIP(clientIP, ispQuery, lookup).ret
        == GetIPResult(clientIP + " - " + Suffix(FirstMatch(clientIP).value), EmptyIPInfo)
  {
    if FirstMatch(clientIP).None? {
      assert forall p: Pattern :: !Matches(p, clientIP);
    }
  }

  /** Without `isp=true`, a public address is reported bare. */
  lemma PublicWithoutLookupIsBare(clientIP: string, ispQuery: string, lookup: string -> IPInfoResponse)
    requires forall p: Pattern :: !Matches(p, clientIP)
    requires ispQuery != "true"
    ensures HandleGetIP(clientIP, ispQuery, lookup).ret.processedString == clientIP
  {
  }

  /** A failed lookup (empty answer) yields "<ip> - Unknown ISP". */
  lemma FailedLookupIsUnknownISP(clientIP: string, lookup: string -> IPInfoResponse)
    requires forall p: Pattern :: !Matches(p, clientIP)
    requires !Contains(clientIP, " - ")
    requires lookup(clientIP) == EmptyIPInfo
    ensures HandleGetIP(clientIP, "true", lookup).ret.processedString == clientIP + " - Unknown ISP"
  {
    var info := GetIPInfo(lookup, clientIP);
    assert info == EmptyIPInfo;
    assert IspString(info) == "Unknown ISP" by {
      assert RemoveAS("") == "";
    }
    assert clientIP + " - " + "Unknown ISP" == clientIP + " - Unknown ISP";
  }

  /**
    An organisation "AS<n> <name>" is shown as "<name>" when no further
    `AS\d+\s` match starts in the name ("AS7922 COMCAST-7922" gives
    "COMCAST-7922").
   */
  lemma IspNameDropsASNumber(digits: string, name: string)
    requires |digits| >= 1 && AllDigits(digits)
    requires name != "" && forall i :: 0 <= i < |name| ==> !StartsWithToken(name[i..])
    ensures IspName("AS" + digits + " " + name) == name
  {
    RemoveASToken(digits, ' ', name);
    assert "AS" + digits + " " + name == "AS" + digits + [' '] + name;
    RemoveASWithoutToken(name);
  }

  /** The usual shape of a lookup answer: "AS7922 COMCAST-7922" is shown as "COMCAST-7922". */
  lemma ComcastExample()
    ensures IspName("AS7922 COMCAST-7922") == "COMCAST-7922"
  {
    var name := "COMCAST-7922";
    ComcastHasNoToken(name);
    IspNameDropsASNumber("7922", name);
    assert "AS" + "7922" + " " + name == "AS7922 COMCAST-7922";
  }

  lemma ComcastHasNoToken(name: string)
    requires name == "COMCAST-7922"
    ensures forall i :: 0 <= i < |name| ==> !StartsWithToken(name[i..])
  {
    assert forall i :: 0 <= i < |name| - 2 ==> !(name[i] == 'A' && name[i + 1] == 'S' && IsDigit(name[i + 2]));
    NoTokenWithoutASDigit(name);
  }
}

=== FILE: hostport.dfy ===
/**
  Go's `net.SplitHostPort` and `net.JoinHostPort`, which the `Record`
  handler uses to take the client address out of the request's remote
  address. They belong to Go's standard library; their behaviour is
  written out here from its documented rules.
 */
module HostPort {
  import opened Wrappers
  import opened Text

  datatype AddrError = MissingPort | TooManyColons | MissingBracket | UnexpectedOpen | UnexpectedClose

  datatype HostPortSplit = HostPortSplit(host: string, port: string, err: Option<AddrError>)

  /**
    `SplitHostPort`: the port follows the last ':'; a host starting with
    '[' must end with the ']' just before that colon; a plain host must not
    contain ':'; no stray '[' or ']' may follow. On an error host and port
    are empty.
   */
  function SplitHostPort(hostport: string): (r: HostPortSplit)
    ensures r.err.Some? ==> r.host == "" && r.port == ""
    ensures r.err.None? ==>
      && ':' in hostport
      && r.port == hostport[LastChar(hostport, ':').value + 1..]
      && ':' !in r.port && '[' !in r.host && ']' !in r.host
    ensures ':' !in hostport ==> r.err == Some(MissingPort)
  {
    match LastChar(hostport, ':')
    case None => Failed(MissingPort)
    case Some(i) =>
      if hostport[0] == '[' then
        match FindChar(hostport, ']')
        case None => Failed(MissingBracket)
        case Some(end) =>
          if end + 1 == |hostport| then Failed(MissingPort)
          else if end + 1 != i then Failed(if hostport[end + 1] == ':' then TooManyColons else MissingPort)
          else
            var r := Checked(hostport, hostport[1..end], 1, end + 1, i);
            NotInSlice(hostport, 1, end, '[');
            NotInSlice(hostport[..end], 1, end, ']');
            assert hostport[..end][1..end] == hostport[1..end];
            r
      else if ':' in hostport[..i] then Failed(TooManyColons)
      else
        var r := Checked(hostport, hostport[..i], 0, 0, i);
        NotInSlice(hostport, 0, i, '[');
        NotInSlice(hostport, 0, i, ']');
        assert hostport[0..i] == hostport[..i];
        r
  }

  function Failed(e: AddrError): (r: HostPortSplit)
    ensures r.err == Some(e) && r.host == "" && r.port == ""
  {
    HostPortSplit("", "", Some(e))
  }

  /** The checks for stray brackets from positions `j` and `k` on, then the result. */
  function Checked(hostport: string, host: string, j: nat, k: nat, i: nat): (r: HostPortSplit)
    requires j <= |hostport| && k <= |hostport| && i < |hostport|
    ensures r.err.Some? ==> r.host == "" && r.port == ""
    ensures r.err.None? ==>
      r.host == host && r.port == hostport[i + 1..] && '[' !in hostport[j..] && ']' !in hostport[k..]
  {
    if '[' in hostport[j..] then Failed(UnexpectedOpen)
    else if ']' in hostport[k..] then Failed(UnexpectedClose)
    else HostPortSplit(host, hostport[i + 1..], None)
  }

  lemma NotInSlice(s: string, lo: nat, hi: nat, c: char)
    requires lo <= hi <= |s|
    ensures c !in s[lo..] ==> c !in s[lo..hi]
  {
    assert s[lo..hi] == s[lo..][..hi - lo];
  }

  /** `JoinHostPort`: brackets around a host that contains ':'. */
  function JoinHostPort(host: string, port: string): string {
    if ':' in host then "[" + host + "]:" + port else host + ":" + port
  }

  /**
    Round trip: a host without brackets and a port without ':' or
    brackets come back out of the joined address unchanged.
   */
  lemma SplitJoined(host: string, port: string)
    requires '[' !in host && ']' !in host
    requires ':' !in port && '[' !in port && ']' !in port
    ensures SplitHostPort(JoinHostPort(host, port)) == HostPortSplit(host, port, None)
  {
    if ':' in host {
      SplitBracketed(host, port);
    } else {
      SplitPlain(host, port);
    }
  }

  lemma SplitBracketed(host: string, port: string)
    requires ':' in host && '[' !in host && ']' !in host
    requires ':' !in port && '[' !in port && ']' !in port
    ensures SplitHostPort("[" + host + "]:" + port) == HostPortSplit(host, port, None)
  {
    var hp := "[" + host + "]:" + port;
    var i := |host| + 2;
    BracketedPositions(host, port);
    assert Checked(hp, hp[1..i - 1], 1, i, i) == HostPortSplit(host, port, None);
  }

  /** Where `SplitHostPort` finds the colon and the brackets of `[host]:port`. */
  lemma BracketedPositions(host: string, port: string)
    requires '[' !in host && ']' !in host
    requires ':' !in port && '[' !in port && ']' !in port
    ensures var hp := "[" + host + "]:" + port;
      && hp[0] == '['
      && LastChar(hp, ':') == Some(|host| + 2)
      && FindChar(hp, ']') == Some(|host| + 1)
      && hp[1..|host| + 1] == host
      && hp[|host| + 3..] == port
      && '[' !in hp[1..]
      && ']' !in hp[|host| + 2..]
  {
    var hp := "[" + host + "]:" + port;
    var i := |host| + 2;
    assert hp[i + 1..] == port;
    assert LastChar(hp, ':') == Some(i) by {
      assert hp[i] == ':';
    }
    assert FindChar(hp, ']') == Some(|host| + 1) by {
      assert hp[|host| + 1] == ']';
      assert hp[..|host| + 1] == "[" + host;
    }
    assert hp[1..|host| + 1] == host;
    assert hp[1..] == host + "]:" + port;
    assert hp[i..] == ":" + port;
  }

  lemma SplitPlain(host: string, port: string)
    requires ':' !in host && '[' !in host && ']' !in host
    requires ':' !in port && '[' !in port && ']' !in port
    ensures SplitHostPort(host + ":" + port) == HostPortSplit(host, port, None)
  {
    var hp := host + ":" + port;
    var i := |host|;
    assert hp[i + 1..] == port;
    assert LastChar(hp, ':') == Some(i) by {
      assert hp[i] == ':';
    }
    assert hp[..i] == host;
    assert hp[0..] == hp;
    assert hp[0] != '[' by {
      if |host| > 0 {
        assert hp[0] == host[0];
      }
    }
    assert Checked(hp, hp[..i], 0, 0, i) == HostPortSplit(host, port, None);
  }
}

=== FILE: keyorder.dfy ===
/**
  The order of keys in the bbolt B+tree: bytewise lexicographic comparison.
  Keys are modelled as strings; comparing characters by code point orders
  strings exactly as comparing their UTF-8 encodings byte by byte does.
 */
module KeyOrder {

  /** `a` sorts strictly before `b` (`bytes.Compare(a, b) < 0`). */
  predicate Less(a: string, b: string)
    decreases |a|
  {
    if |a| == 0 then |b| > 0
    else if |b| == 0 then false
    else if a[0] != b[0] then a[0] < b[0]
    else Less(a[1..], b[1..])
  }

  lemma {:induction false} LessIrreflexive(a: string)
    ensures !Less(a, a)
    decreases |a|
  {
    if |a| > 0 {
      LessIrreflexive(a[1..]);
    }
  }

  lemma {:induction false} LessTotal(a: string, b: string)
    requires a != b
    ensures Less(a, b) || Less(b, a)
    decreases |a|
  {
    if |a| > 0 && |b| > 0 && a[0] == b[0] {
      assert a == [a[0]] + a[1..] && b == [b[0]] + b[1..];
      LessTotal(a[1..], b[1..]);
    }
  }

  lemma {:induction false} LessTransitive(a: string, b: string, c: string)
    requires Less(a, b) && Less(b, c)
    ensures Less(a, c)
    decreases |a|
  {
    if |a| > 0 && |b| > 0 && |c| > 0 && a[0] == b[0] && b[0] == c[0] {
      LessTransitive(a[1..], b[1..], c[1..]);
    }
  }

  lemma LessAsymmetric(a: string, b: string)
    requires Less(a, b)
    ensures !Less(b, a)
  {
    if Less(b, a) {
      LessTransitive(a, b, a);
      LessIrreflexive(a);
    }
  }
}

=== FILE: netip.dfy ===
/**
  The part of Go's `net.ParseIP` the model needs. Go looks for the first of
  '.', ':' and '%': a '.' sends the whole text to the dotted-quad parser, a
  ':' to the IPv6 parser, and anything else fails. The dotted-quad parser is
  written out; IPv6 syntax is left to a parser passed in as a function,
  which also reports whether the address is IPv4-mapped (`To4() != nil`).
 */
module NetIP {
  import opened Wrappers
  import opened Text

  /** What the IPv6 parser says about a text whose first separator is ':'. */
  datatype V6Kind = NotV6 | V6 | V6Mapped

  /** The outcome of `net.ParseIP`: nil, an IPv4 address, or an IPv6 address. */
  datatype IPForm = NotIP | IPv4 | IPv6(mapped: bool)

  predicate IsSeparator(ch: char) {
    ch == '.' || ch == ':' || ch == '%'
  }

  /** The first '.', ':' or '%' in `s`, which selects the parser. */
  function FirstSeparator(s: string): (r: Option<char>)
    ensures r.Some? ==> IsSeparator(r.value) && r.value in s
    ensures r.None? ==> forall i :: 0 <= i < |s| ==> !IsSeparator(s[i])
  {
    if |s| == 0 then None
    else if IsSeparator(s[0]) then Some(s[0])
    else FirstSeparator(s[1..])
  }

  /** Exactly four '.'-separated canonical decimal fields, each at most 255. */
  predicate IsDottedQuad(s: string) {
    var parts := Split(s, '.');
    |parts| == 4 && forall k :: 0 <= k < 4 ==> IsOctetText(parts[k])
  }

  /** `net.ParseIP(s)`, with IPv6 syntax decided by `v6`. */
  function ParseIP(v6: string -> V6Kind, s: string): (r: IPForm)
    ensures r.IPv4? <==> FirstSeparator(s) == Some('.') && IsDottedQuad(s)
    ensures r.IPv6? <==> FirstSeparator(s) == Some(':') && v6(s) != NotV6
    ensures r.IPv6? ==> (r.mapped <==> v6(s) == V6Mapped)
  {
    var sep := FirstSeparator(s);
    if sep == Some('.') then (if IsDottedQuad(s) then IPv4 else NotIP)
    else if sep == Some(':') then FromV6(v6(s))
    else NotIP
  }

  function FromV6(k: V6Kind): IPForm {
    match k
    case NotV6 => NotIP
    case V6 => IPv6(false)
    case V6Mapped => IPv6(true)
  }

  /** `isIP` in web/chart.go: `net.ParseIP` did not return nil. */
  predicate IsIP(v6: string -> V6Kind, s: string): (r: bool)
    ensures r <==> (FirstSeparator(s) == Some('.') && IsDottedQuad(s)) || (FirstSeparator(s) == Some(':') && v6(s) != NotV6)
    ensures (forall i :: 0 <= i < |s| ==> !IsSeparator(s[i])) ==> !r
  {
    !ParseIP(v6, s).NotIP?
  }

  /** `ParseIP(s).To4() != nil`. */
  predicate HasIPv4Form(f: IPForm) {
    f.IPv4? || (f.IPv6? && f.mapped)
  }

  /** A prefix free of separators does not change which parser is chosen. */
  lemma {:induction false} FirstSeparatorSkips(t: string, rest: string)
    requires forall i :: 0 <= i < |t| ==> !IsSeparator(t[i])
    ensures FirstSeparator(t + rest) == FirstSeparator(rest)
    decreases |t|
  {
    if |t| > 0 {
      assert (t + rest)[0] == t[0];
      assert (t + rest)[1..] == t[1..] + rest;
      FirstSeparatorSkips(t[1..], rest);
    } else {
      assert t + rest == rest;
    }
  }

  lemma DigitsHaveNoSeparator(t: string)
    requires AllDigits(t)
    ensures '.' !in t
    ensures forall i :: 0 <= i < |t| ==> !IsSeparator(t[i])
  {
  }

  function Dotted(a: string, b: string, c: string, d: string): string {
    a + "." + b + "." + c + "." + d
  }

  lemma DottedSplit(a: string, b: string, c: string, d: string)
    requires '.' !in a && '.' !in b && '.' !in c && '.' !in d
    ensures Split(Dotted(a, b, c, d), '.') == [a, b, c, d]
  {
    var parts := [a, b, c, d];
    assert parts[1..][1..][1..] == [d];
    assert Join(parts[1..][1..], '.') == c + "." + d;
    assert Join(parts[1..], '.') == b + "." + (c + "." + d);
    assert Join(parts, '.') == Dotted(a, b, c, d);
    SplitJoin(parts, '.');
  }

  /** The first separator of a text starting with a non-empty digit field and a dot is the dot. */
  lemma FirstSeparatorIsDot(a: string, rest: string)
    requires |a| >= 1 && AllDigits(a)
    ensures FirstSeparator(a + "." + rest) == Some('.')
  {
    FirstSeparatorSkips(a, "." + rest);
    assert a + "." + rest == a + ("." + rest);
  }

  lemma DottedFirstSeparator(a: string, b: string, c: string, d: string)
    requires |a| >= 1 && AllDigits(a)
    ensures FirstSeparator(Dotted(a, b, c, d)) == Some('.')
  {
    assert Dotted(a, b, c, d) == a + "." + (b + "." + c + "." + d);
    FirstSeparatorIsDot(a, b + "." + c + "." + d);
  }

  /** Four parts joined with '.' are their dotted text. */
  lemma JoinFour(p: seq<string>)
    requires |p| == 4
    ensures Join(p, '.') == Dotted(p[0], p[1], p[2], p[3])
  {
    assert p[1..][1..][1..] == [p[3]];
    assert Join(p[1..][1..], '.') == p[2] + "." + p[3];
  }

  /** Every valid dotted quad parses as IPv4, whatever the IPv6 parser does. */
  lemma ParseDottedQuad(v6: string -> V6Kind, a: string, b: string, c: string, d: string)
    requires IsOctetText(a) && IsOctetText(b) && IsOctetText(c) && IsOctetText(d)
    ensures ParseIP(v6, Dotted(a, b, c, d)) == IPv4
  {
    DottedFirstSeparator(a, b, c, d);
    assert IsDottedQuad(Dotted(a, b, c, d)) by {
      DigitsHaveNoSeparator(a);
      DigitsHaveNoSeparator(b);
      DigitsHaveNoSeparator(c);
      DigitsHaveNoSeparator(d);
      DottedSplit(a, b, c, d);
    }
  }

  /** A dotted text whose last field is the letter `x` is not an IP address. */
  lemma MaskedIsNotIP(v6: string -> V6Kind, a: string, b: string, c: string)
    requires IsOctetText(a) && IsOctetText(b) && IsOctetText(c)
    ensures ParseIP(v6, Dotted(a, b, c, "x")) == NotIP
  {
    DottedFirstSeparator(a, b, c, "x");
    assert !IsDottedQuad(Dotted(a, b, c, "x")) by {
      DigitsHaveNoSeparator(a);
      DigitsHaveNoSeparator(b);
      DigitsHaveNoSeparator(c);
      DottedSplit(a, b, c, "x");
      assert Split(Dotted(a, b, c, "x"), '.')[3] == "x";
      assert !IsOctetText("x") by {
        assert !IsDigit("x"[0]);
      }
    }
  }

  /** ParseIP accepts a text as IPv4 exactly when it is a dotted quad. */
  lemma ParseIPv4Exactly(v6: string -> V6Kind, s: string)
    ensures ParseIP(v6, s).IPv4? <==> IsDottedQuad(s)
  {
    if IsDottedQuad(s) {
      DottedQuadShape(s);
      var p := Split(s, '.');
      ParseDottedQuad(v6, p[0], p[1], p[2], p[3]);
    }
  }

  /** A dotted quad is the dotted text of its four fields. */
  lemma DottedQuadShape(s: string)
    requires IsDottedQuad(s)
    ensures var p := Split(s, '.');
      |p| == 4 && s == Dotted(p[0], p[1], p[2], p[3])
      && IsOctetText(p[0]) && IsOctetText(p[1]) && IsOctetText(p[2]) && IsOctetText(p[3])
  {
    JoinFour(Split(s, '.'));
  }

  /** The empty text is not an IP address. */
  lemma EmptyIsNotIP(v6: string -> V6Kind)
    ensures !IsIP(v6, "")
  {
  }
}

=== FILE: ratelimit.dfy ===
/**
  The fixed-window `SimpleRateLimiter` of web/chart.go that guards the
  chart endpoint. Instants and durations are nanoseconds; the clock reading
  of each call is passed in as `now`.
 */
module RateLimit {

  datatype Limiter = Limiter(maxReqs: int, window: int, count: int, resetTime: int)

  const Second: int := 1_000_000_000

  /** The global limiter's budget: 5 requests per 10 seconds. */
  const GlobalMaxReqs: int := 5
  const GlobalWindow: int := 10 * Second

  /** The reachable states: the counter never passes the budget once it is positive. */
  predicate Valid(l: Limiter) {
    0 <= l.count && (l.count <= l.maxReqs || l.count == 0)
  }

  /** `NewSimpleRateLimiter(maxReqs, window)` created at instant `now`. */
  function NewSimpleRateLimiter(maxReqs: int, window: int, now: int): (l: Limiter)
    ensures Valid(l)
    ensures l.maxReqs == maxReqs && l.window == window
    ensures l.count == 0 && l.resetTime == now + window
  {
    Limiter(maxReqs, window, 0, now + window)
  }

  datatype Decision = Decision(next: Limiter, allowed: bool)

  /**
    `Allow` at instant `now`: a new window starts only when `now` is strictly
    after the reset time; then the request passes while the count is below
    the budget, and only a passing request is counted.
   */
  function Allow(l: Limiter, now: int): (d: Decision)
    ensures d.next.maxReqs == l.maxReqs && d.next.window == l.window
    ensures now > l.resetTime ==> d.next.resetTime == now + l.window
    ensures now <= l.resetTime ==> d.next.resetTime == l.resetTime
    ensures now <= l.resetTime ==>
      (d.allowed <==> l.count < l.maxReqs)
      && d.next.count == (if d.allowed then l.count + 1 else l.count)
    ensures now > l.resetTime ==>
      (d.allowed <==> 0 < l.maxReqs) && d.next.count == (if d.allowed then 1 else 0)
    ensures Valid(l) ==> Valid(d.next)
    ensures !d.allowed && now <= l.resetTime ==> d.next == l
  {
    var base := if now > l.resetTime then l.(count := 0, resetTime := now + l.window) else l;
    if base.count < base.maxReqs then Decision(base.(count := base.count + 1), true)
    else Decision(base, false)
  }

  /** The limiter after a sequence of calls, and each call's answer. */
  datatype Trace = Trace(final: Limiter, answers: seq<bool>)

  function Run(l: Limiter, times: seq<int>): (t: Trace)
    ensures |t.answers| == |times|
    decreases |times|
  {
    if |times| == 0 then Trace(l, [])
    else
      var d := Allow(l, times[0]);
      var rest := Run(d.next, times[1..]);
      Trace(rest.final, [d.allowed] + rest.answers)
  }

  function Min(a: int, b: int): int {
    if a <= b then a else b
  }

  function Max(a: int, b: int): int {
    if a >= b then a else b
  }

  /**
    Within one window (no call after the reset time), the i-th call passes
    exactly when `count + i` is below the budget, and the counter ends at
    the budget at most; the window itself does not move.
   */
  lemma {:induction false} BurstWithinWindow(l: Limiter, times: seq<int>)
    requires Valid(l)
    requires forall i :: 0 <= i < |times| ==> times[i] <= l.resetTime
    ensures var t := Run(l, times);
      && (forall i :: 0 <= i < |times| ==> (t.answers[i] <==> l.count + i < l.maxReqs))
      && t.final == l.(count := Min(l.count + |times|, Max(l.count, l.maxReqs)))
    decreases |times|
  {
    if |times| > 0 {
      var d := Allow(l, times[0]);
      BurstWithinWindow(d.next, times[1..]);
      var t := Run(l, times);
      forall i | 0 <= i < |times|
        ensures t.answers[i] <==> l.count + i < l.maxReqs
      {
        if i > 0 {
          assert t.answers[i] == Run(d.next, times[1..]).answers[i - 1];
        }
      }
    }
  }

  /**
    With the global budget (5 per 10 s), six calls before the window ends:
    the first five pass, the sixth is refused and leaves the limiter as it
    was after the fifth.
   */
  lemma SixthCallDenied(created: int, times: seq<int>)
    requires |times| == 6
    requires forall i :: 0 <= i < 6 ==> times[i] <= created + GlobalWindow
    ensures var l := NewSimpleRateLimiter(GlobalMaxReqs, GlobalWindow, created);
      var t := Run(l, times);
      && t.answers == [true, true, true, true, true, false]
      && t.final == Run(l, times[..5]).final
      && t.final.count == 5
  {
    var l := NewSimpleRateLimiter(GlobalMaxReqs, GlobalWindow, created);
    BurstWithinWindow(l, times);
    BurstWithinWindow(l, times[..5]);
    var t := Run(l, times);
    assert t.answers[5] == false;
    assert t.answers == [true, true, true, true, true, false];
  }

  /** A call after the window has elapsed passes and restarts the count at one. */
  lemma CallAfterWindowResets(l: Limiter, now: int)
    requires now > l.resetTime && l.maxReqs > 0
    ensures var d := Allow(l, now);
      d.allowed && d.next.count == 1 && d.next.resetTime == now + l.window
  {
  }
}

=== FILE: results.dfy ===
/**
  results/telemetry.go: the `/getIP` response types and the `Record`
  handler, which turns a submitted speed test into a telemetry record and
  stores it.
 */
module Results {
  import opened Wrappers
  import opened Text
  import opened Schema
  import opened Bolt
  import opened HostPort

  /** What the IP lookup service answers; every field is a string. */
  datatype IPInfoResponse = IPInfoResponse(
    ip: string,
    asn: string,
    domain: string,
    isp: string,
    continentCode: string,
    continentName: string,
    countryCode: string,
    countryName: string,
    userAgent: string)

  /** The Go zero value of `IPInfoResponse`. */
  const EmptyIPInfo := IPInfoResponse("", "", "", "", "", "", "", "", "")

  /** The JSON body of `/getIP`. */
  datatype GetIPResult = GetIPResult(processedString: string, rawIspInfo: IPInfoResponse)

  /** The parts of the HTTP request `Record` reads. */
  datatype Request = Request(
    remoteAddr: string,
    userAgent: string,
    acceptLanguage: string,
    form: map<string, string>)

  /** `c.PostForm(key)`: the submitted value, or "" when the field is absent. */
  function PostForm(req: Request, key: string): (v: string)
    ensures key in req.form ==> v == req.form[key]
    ensures key !in req.form ==> v == ""
  {
    if key in req.form then req.form[key] else ""
  }

  /**
    The record built from a submitted test, before the UUID and the
    timestamp are set: the client address is the host part of the remote
    address, and an empty `ispinfo` field is stored as "{}".
   */
  function NewRecord(req: Request): (rec: TelemetryData)
    ensures rec.ipAddress == SplitHostPort(req.remoteAddr).host
    ensures rec.ispInfo != ""
    ensures PostForm(req, "ispinfo") == "" ==> rec.ispInfo == "{}"
    ensures PostForm(req, "ispinfo") != "" ==> rec.ispInfo == PostForm(req, "ispinfo")
    ensures rec.download == PostForm(req, "dl") && rec.upload == PostForm(req, "ul")
    ensures rec.ping == PostForm(req, "ping") && rec.jitter == PostForm(req, "jitter")
    ensures rec.log == PostForm(req, "log") && rec.extra == PostForm(req, "extra")
    ensures rec.userAgent == req.userAgent && rec.language == req.acceptLanguage
    ensures rec.uuid == "" && rec.timestamp == 0
  {
    var isp := PostForm(req, "ispinfo");
    TelemetryData(
      0, "", SplitHostPort(req.remoteAddr).host,
      if isp == "" then "{}" else isp,
      PostForm(req, "extra"), req.userAgent, req.acceptLanguage,
      PostForm(req, "dl"), PostForm(req, "ul"), PostForm(req, "ping"), PostForm(req, "jitter"),
      PostForm(req, "log"))
  }

  /** A plain-text reply. */
  datatype TextReply = TextReply(status: int, body: string)

  datatype Recorded = Recorded(store: Store, reply: TextReply)

  /**
    `Record`: `model` is the configured database model, `uuid` the ULID
    generated for the test, `now` the save time and `commitOk` whether the
    store's commit succeeds.
   */
  function Record(model: string, req: Request, uuid: string, now: int, store: Store, codec: Codec, commitOk: bool): (r: Recorded)
    ensures model == "none" ==> r == Recorded(store, TextReply(200, "Telemetry is disabled"))
    ensures model != "none" ==>
      var saved := SaveTelemetry(store, NewRecord(req).(uuid := uuid), now, codec, commitOk);
      && (r.reply.status == 200 <==> saved.err.None?)
      && (saved.err.None? ==> r == Recorded(saved.store, TextReply(200, "id " + uuid)))
      && (saved.err.Some? ==> r == Recorded(store, TextReply(500, "Internal Server Error")))
    ensures r.reply.status == 200 || r.reply.status == 500
    ensures r.reply.status == 500 ==> r.store == store
  {
    if model == "none" then Recorded(store, TextReply(200, "Telemetry is disabled"))
    else
      var saved := SaveTelemetry(store, NewRecord(req).(uuid := uuid), now, codec, commitOk);
      if saved.err.Some? then Recorded(store, TextReply(500, "Internal Server Error"))
      else Recorded(saved.store, TextReply(200, "id " + uuid))
  }

  /**
    A recorded test can be read back: after an "id <uuid>" reply the store
    returns, under that UUID, the submitted fields stamped with the save
    time, when the codec round-trips.
   */
  lemma RecordThenGet(model: string, req: Request, uuid: string, now: int, store: Store, codec: Codec, commitOk: bool)
    requires RoundTrips(codec)
    requires model != "none"
    requires Record(model, req, uuid, now, store, codec, commitOk).reply.status == 200
    ensures var r := Record(model, req, uuid, now, store, codec, commitOk);
      && r.reply.body == "id " + uuid
      && GetTelemetryByUUID(r.store, uuid, codec.decode)
         == Success(NewRecord(req).(uuid := uuid, timestamp := now))
  {
    SaveThenGet(store, NewRecord(req).(uuid := uuid), now, codec, commitOk);
  }

  /** With telemetry disabled nothing is stored, whatever is submitted. */
  lemma DisabledStoresNothing(req: Request, uuid: string, now: int, store: Store, codec: Codec, commitOk: bool)
    ensures Record("none", req, uuid, now, store, codec, commitOk).store == store
  {
  }
}

=== FILE: schema.dfy ===
/**
  The persisted telemetry record (`schema.TelemetryData`, whose package is
  not part of this model; its fields are those that database/bolt/bolt.go
  and results/telemetry.go read and write). The timestamp is an instant in
  nanoseconds; the measurements stay strings, as the source stores them.
 */
module Schema {

  datatype TelemetryData = TelemetryData(
    timestamp: int,
    uuid: string,
    ipAddress: string,
    ispInfo: string,
    extra: string,
    userAgent: string,
    language: string,
    download: string,
    upload: string,
    ping: string,
    jitter: string,
    log: string)
}

=== FILE: text.dfy ===
/**
  String helpers with the semantics of Go's `strings` package: `Index`,
  `Contains`, `HasPrefix` and `Split` with a one-character separator.
  Strings are sequences of characters; Go compares and searches them
  byte by byte, which agrees with character comparison for the ASCII
  separators used here.
 */
module Text {
  import opened Wrappers

  /** `sep` occurs in `s` starting at position `i`. */
  predicate OccursAt(s: string, sep: string, i: int) {
    0 <= i && i + |sep| <= |s| && s[i..i + |sep|] == sep
  }

  predicate StartsWith(s: string, prefix: string) {
    |prefix| <= |s| && s[..|prefix|] == prefix
  }

  /** The first occurrence of `sep` in `s` at or after `i`. */
  function IndexFrom(s: string, sep: string, i: nat): (r: Option<nat>)
    requires i <= |s|
    ensures r.Some? ==> i <= r.value && OccursAt(s, sep, r.value)
    ensures r.Some? ==> forall j :: i <= j < r.value ==> !OccursAt(s, sep, j)
    ensures r.None? ==> forall j :: i <= j ==> !OccursAt(s, sep, j)
    decreases |s| - i
  {
    if OccursAt(s, sep, i) then Some(i)
    else if i == |s| then None
    else IndexFrom(s, sep, i + 1)
  }

  /** Go's `strings.Index`, with `None` for -1. */
  function Index(s: string, sep: string): (r: Option<nat>)
    ensures r.Some? ==> OccursAt(s, sep, r.value)
    ensures r.Some? ==> forall j :: 0 <= j < r.value ==> !OccursAt(s, sep, j)
    ensures r.None? ==> forall j :: !OccursAt(s, sep, j)
  {
    IndexFrom(s, sep, 0)
  }

  /** Go's `strings.Contains`. */
  predicate Contains(s: string, sep: string) {
    Index(s, sep).Some?
  }

  lemma ContainsAt(s: string, sep: string, i: int)
    requires OccursAt(s, sep, i)
    ensures Contains(s, sep)
  {
  }

  /** The first position of character `c` in `s`. */
  function FindChar(s: string, c: char): (r: Option<nat>)
    ensures r.Some? ==> r.value < |s| && s[r.value] == c && c !in s[..r.value]
    ensures r.None? ==> c !in s
  {
    if |s| == 0 then None
    else if s[0] == c then Some(0)
    else
      var t := FindChar(s[1..], c);
      if t.None? then None
      else
        assert s[..t.value + 1] == [s[0]] + s[1..][..t.value];
        Some(t.value + 1)
  }

  /** The last position of character `c` in `s` (Go's `last` helper). */
  function LastChar(s: string, c: char): (r: Option<nat>)
    ensures r.Some? ==> r.value < |s| && s[r.value] == c && c !in s[r.value + 1..]
    ensures r.None? ==> c !in s
  {
    if |s| == 0 then None
    else if s[|s| - 1] == c then Some(|s| - 1)
    else
      var t := LastChar(s[..|s| - 1], c);
      if t.None? then None
      else
        assert s[t.value + 1..] == s[..|s| - 1][t.value + 1..] + [s[|s| - 1]];
        Some(t.value)
  }

  /** Joins non-empty `parts` with the separator `c` (Go's `strings.Join`). */
  function Join(parts: seq<string>, c: char): string
    requires |parts| >= 1
  {
    if |parts| == 1 then parts[0] else parts[0] + [c] + Join(parts[1..], c)
  }

  /** Go's `strings.Split` with the one-character separator `c`. */
  function Split(s: string, c: char): (parts: seq<string>)
    ensures |parts| >= 1
    ensures forall k :: 0 <= k < |parts| ==> c !in parts[k]
    ensures Join(parts, c) == s
    decreases |s|
  {
    match FindChar(s, c)
    case None => [s]
    case Some(i) =>
      var rest := Split(s[i + 1..], c);
      assert s == s[..i] + [c] + s[i + 1..];
      [s[..i]] + rest
  }

  /** Splitting a joined sequence of separator-free parts gives the parts back. */
  lemma {:induction false} SplitJoin(parts: seq<string>, c: char)
    requires |parts| >= 1
    requires forall k :: 0 <= k < |parts| ==> c !in parts[k]
    ensures Split(Join(parts, c), c) == parts
    decreases |parts|
  {
    if |parts| > 1 {
      var s := Join(parts, c);
      var p := parts[0];
      var tail := Join(parts[1..], c);
      assert s == p + [c] + tail;
      assert s[..|p|] == p;
      assert s[|p|] == c;
      assert FindChar(s, c) == Some(|p|);
      assert s[|p| + 1..] == tail;
      SplitJoin(parts[1..], c);
      assert Split(s, c) == [p] + parts[1..];
    } else {
      assert Join(parts, c) == parts[0];
      assert FindChar(parts[0], c).None?;
    }
  }

  predicate IsDigit(ch: char) {
    '0' <= ch <= '9'
  }

  predicate AllDigits(s: string) {
    forall i :: 0 <= i < |s| ==> IsDigit(s[i])
  }

  /** The decimal value of a digit string. */
  function DecimalValue(s: string): nat
    requires AllDigits(s)
  {
    if |s| == 0 then 0
    else DecimalValue(s[..|s| - 1]) * 10 + (s[|s| - 1] as int - '0' as int)
  }

  /**
    A dotted-decimal IPv4 field as Go's parser accepts it: one to three
    digits, no leading zero unless the field is "0", value at most 255.
   */
  predicate IsOctetText(t: string) {
    1 <= |t| <= 3 && AllDigits(t) && (|t| == 1 || t[0] != '0') && DecimalValue(t) <= 255
  }
}

=== FILE: wrappers.dfy ===
/** The Option and Result types shared by every module of the model. */
module Wrappers {

  /** A value that may be absent (Go's nil pointer or "ok == false"). */
  datatype Option<+T> = None | Some(value: T) {
    function GetOr(default: T): T {
      match this
      case Some(v) => v
      case None => default
    }
  }

  /** Either a value or an error (Go's `(T, error)` pair). */
  datatype Result<+T, +E> = Success(value: T) | Failure(error: E)
}
